=== FILE: README.md ===
# Motorcycle-shop directory: a Dafny model of its core

The application is a directory of motorcycle repair shops. It is written twice: a Next.js front end with TypeScript API routes, and a small Flask app with a Python search script. This project models the pure logic of both and proves properties of it:

- **Shop catalog** (`lib/shops-data.ts`). The memoised `loadShops` cache, the exact-match filters by country and by country and city, the case-insensitive search over five fields, and the two counting passes (per country, and per city within a country).
- **City registry** (`loadCities` in `lib/search-engine.ts`, `load_cities` in `src/search_engine.py`). The TypeScript loader's own line parser, and the Python loader's mapping of CSV reader rows.
- **Country map** (`app/api/cities/route.ts`, `build_country_map` and `index` in `src/app.py`). Cities are grouped by country, then the countries and each country's cities are sorted.
- **Live search** (`searchCity` / `search_city`, `overpassQuery` / `overpass_query`, and the Python batch loop). The steps are geocoding, a pause, the POI query, element normalisation and truncation, and how errors are reported.
- **HTTP dispatch** (`app/api/shops/route.ts`, `app/api/search/route.ts`, `api_search` in `src/app.py`). This covers parameter precedence, validation, default numbers and status codes.

Everything is pure. The catalog rows, the registry file's text, the CSV reader's rows and the replies of the two web services (Nominatim and Overpass) are parameters. The search functions also return the list of remote calls and pauses they make, so properties such as "the POI service is not called when geocoding finds nothing" are stated about that list.

Files, each one module:

- `wrappers.dfy`: `Option`, `Result`, the JSON member `Field` (absent / `null` / value), and `Http`.
- `seqs.dfy`: order-preserving `Filter`, `Distinct`, and slicing with `slice(0, n)` / `[:n]` semantics.
- `strings.dfy`: trimming, ASCII lower-casing, substring search, split / join, decimal numerals, and the code-unit order with a sort.
- `records.dfy`: a JavaScript object or Python dict as an insertion-ordered list of unique keys, with `Get`, `Put` and sums over values.
- `shops_data.dfy`, `city_file.dfy`, `country_map.dfy`, `search_engine.dfy`, `shops_route.dfy`, `search_route.dfy`: the components listed above.

## Model

| member | source | states |
|---|---|---|
| ShopsData.LoadShops | lib/shops-data.ts:22-49 | The file is read exactly when nothing is cached. A successful load is cached and returned. A cached catalog is returned unchanged. A failed read throws and leaves the cache empty. |
| ShopsData.LoadIsMemoized | lib/shops-data.ts:24-28 | After one call of a sequence of calls has loaded the catalog, every later call returns that same catalog and reads no file, whatever the file holds by then. |
| ShopsData.ShopsByCountry | lib/shops-data.ts:51-54 | A shop is in the result exactly when it is in the catalog with that country. The result keeps catalog order (it is a subsequence). |
| ShopsData.ShopsByCountryMultiplicity | lib/shops-data.ts:51-54 | Each shop of the country occurs in the result as often as in the catalog, and shops of other countries not at all. |
| ShopsData.ShopsByCity | lib/shops-data.ts:56-61 | A shop is in the result exactly when it matches both the country and the city name. Catalog order is kept, and each matching shop occurs as often as in the catalog. |
| ShopsData.ShopsByCityWithinCountry | lib/shops-data.ts:56-61 | The city filter equals the country filter's result narrowed by city name, so it is a subsequence of the country's shops. |
| ShopsData.SearchShops | lib/shops-data.ts:63-75 | A shop is kept if and only if the lower-cased query occurs in the lower-cased name, city, country, business type or address. Catalog order is kept, and each kept shop occurs as often as in the catalog. |
| ShopsData.SearchEmptyQuery | lib/shops-data.ts:63-75 | The empty query returns the whole catalog unchanged. |
| ShopsData.SearchIgnoresQueryCase | lib/shops-data.ts:65 | Searching for a query and for its lower-cased form gives the same result. |
| ShopsData.CitiesBetweenOneAndShops | lib/shops-data.ts:81-96 | A country in the catalog has at least one distinct city, and never more distinct cities than shops. |
| ShopsData.CountriesWithShopCounts | lib/shops-data.ts:77-102 | Keys are unique and are exactly the catalog's countries. Each entry holds the number of distinct city names and of shops for its country, with 1 <= cities <= shops. The shop counts sum to the catalog size. |
| ShopsData.CitiesWithShopCounts | lib/shops-data.ts:104-115 | Keys are unique and are exactly the country's distinct cities. Each count is the size of the matching city filter. The counts sum to the country's shop count. An unknown country gives an empty object. |
| CityFile.NonBlankLines | lib/search-engine.ts:40 | Every kept line has non-white-space content and no newline. |
| CityFile.NonBlankLinesCons | lib/search-engine.ts:40 | Lines are kept in text order: the first line comes first when it has text, followed by the non-blank lines of the rest. |
| CityFile.NonBlankLinesLast | lib/search-engine.ts:40 | A newline-free text is kept as one line exactly when it has text. |
| CityFile.ParseRow | lib/search-engine.ts:45-48 | Any row produced has non-empty, trimmed, comma-free fields, and newline-free ones when the line is. The exact row is stated by ParseRowFields. |
| CityFile.ParseRowFields | lib/search-engine.ts:45-48 | A line `a,b` yields the city (`a.trim()`, `b.trim()`) exactly when both trimmed fields are non-empty, and no row otherwise. |
| CityFile.ParseRowOneField | lib/search-engine.ts:45-46 | A line without a comma has an `undefined` city and yields no row. |
| CityFile.ExtraFieldsIgnored | lib/search-engine.ts:45 | Text after the second comma of a line does not change what the line yields. |
| CityFile.ParseRowsSource | lib/search-engine.ts:44-49 | Every row is the row of one of the lines. |
| CityFile.ParseRowsAll | lib/search-engine.ts:44-49 | Lines that each yield a row give exactly those rows, in order. |
| CityFile.ParseRowsAppend | lib/search-engine.ts:44-49 | Rows come out in line order: parsing two blocks of lines is parsing each block and concatenating. |
| CityFile.LoadCities | lib/search-engine.ts:37-52 | Every emitted city has non-empty, trimmed, comma- and newline-free fields. There is at most one city per non-blank line after the first. |
| CityFile.LoadCitiesSource | lib/search-engine.ts:40-48 | Every emitted city is the row of some non-blank line after the header. |
| CityFile.HeaderSkipped | lib/search-engine.ts:40-44 | Whatever the first non-blank line holds, even a well-formed row, it is dropped. The rest is parsed line by line. |
| CityFile.LeadingBlankLineIgnored | lib/search-engine.ts:40 | A blank or white-space-only line before the header changes nothing: blank lines are removed before the header is chosen. |
| CityFile.RoundTrip | lib/search-engine.ts:37-52 | Loading a file made of a header, one `country,city` line per city and a final newline gives back exactly those cities, in order. |
| CityFile.BlankCityLine | lib/search-engine.ts:45-48 | A line whose city field is blank yields no row. |
| CityFile.TypeScriptDropsBlankCity | lib/search-engine.ts:45-48 | A file whose only data line has a blank city loads as no cities. |
| CityFile.LoadCitiesPy | src/search_engine.py:22-28 | Loading succeeds exactly when every row has both columns with values. It then gives one stripped entry per row, in order, with nothing filtered out. Otherwise it fails with the `KeyError` or `AttributeError` text. |
| CityFile.RowError | src/search_engine.py:27 | A row raises nothing exactly when both columns are present with values. The country column is read first: a missing `Country` key raises `KeyError: 'Country'` and a missing country value the `AttributeError`, whatever the city column holds. `KeyError: 'City'` arises only once the country has been read. |
| CityFile.LoadCitiesPyFirstError | src/search_engine.py:26-27 | A failed load carries the exception of the first row that raises; every earlier row raises nothing. |
| CityFile.PythonKeepsBlankCity | src/search_engine.py:27 | A row with a blank city is kept, with an empty city. |
| CountryMap.GroupByCountry | app/api/cities/route.ts:9-15 | Keys are unique. Every city's country is a key. Each key holds exactly its country's cities in registry order, duplicates kept. The list lengths sum to the number of cities. |
| CountryMap.GroupKeys | src/app.py:10-15 | A country is a key of the grouping exactly when some registry city has it. |
| CountryMap.GroupValues | src/app.py:13-14 | The list under a country is all of that country's city names, in registry order. |
| CountryMap.SortCountryMap | app/api/cities/route.ts:18-23 | The keys are sorted and are a permutation of the input keys, and stay unique. Each list is sorted and is a permutation of the list under the same key in the input. |
| CountryMap.CountryMapOf | src/app.py:20-22 | The shown map has sorted unique keys, which are exactly the registry's countries. Each country's list is sorted and is a permutation of that country's cities. |
| CountryMap.CountryListLength | app/api/cities/route.ts:21 | Each country's list has as many entries as the registry has cities of that country. |
| CountryMap.LoadedEntries | app/api/cities/route.ts:6-23 | Every country of the served map is a non-empty trimmed name with at least one city. |
| CountryMap.CitiesGet | app/api/cities/route.ts:4-32 | An unreadable file gives exactly the 500 response with "Failed to load cities". Otherwise the response is 200 with the sorted map of the loaded cities. |
| CountryMap.IndexMap | src/app.py:18-23 | Loading errors propagate unchanged: a failure to open the file keeps its error, and a failing row keeps the loader's error. Otherwise the page's map is the sorted map of the loaded cities. |
| CountryMap.PagesAgree | src/app.py:10-22 | When the two loaders agree on the cities, the TypeScript route and the Flask page serve the same map. Both build it with `CountryMapOf`, so this holds by construction. |
| Strings.NatStringValue | lib/search-engine.ts:67 | The decimal numeral written for a status code reads back as that code. |
| SearchEngine.PickCoordinate | lib/search-engine.ts:119-120 | A truthy (present and non-zero) own coordinate is used. Otherwise the center's is used, which may be missing. |
| SearchEngine.PoiTs | lib/search-engine.ts:116-122 | Identifier and type are copied, each coordinate falls back to the center, and tags default to the empty map when absent or `null`. |
| SearchEngine.PoiPy | src/search_engine.py:62-72 | Identifier and type are copied, each coordinate falls back to the center, and absent tags become the empty map. An explicit `null` is kept as no tags. |
| SearchEngine.PoiMappingsAgree | src/search_engine.py:63 | The two element mappings agree if and only if the element's tags are not an explicit `null`. |
| SearchEngine.PoiCoordinateSource | lib/search-engine.ts:119-120 | A POI coordinate is the element's own or its center's. A non-zero own value always wins. With neither, the coordinate is missing. |
| SearchEngine.StatusInMessage | lib/search-engine.ts:66-68 | The "… API error: N" message carries the status code as a decimal numeral that reads back to it. |
| SearchEngine.OverpassTs | lib/search-engine.ts:109-124 | A failed request fails with "Overpass API error: N" or the thrown message. A missing or `null` element list gives no POIs. Otherwise the POIs are the first `limit` elements, mapped in order. |
| SearchEngine.OverpassPy | src/search_engine.py:57-73 | A failed request fails, and so does a `null` element list ("'NoneType' object is not subscriptable"). A missing list gives no POIs. Otherwise the POIs are the first `limit` elements, mapped in order. |
| SearchEngine.OverpassLimit | lib/search-engine.ts:114 | A non-negative limit caps the number of POIs, and a limit at or above the number of elements keeps all of them. |
| SearchEngine.OverpassAgree | src/search_engine.py:60-72 | On a reply without explicit `null`s both queries return the same POIs. |
| SearchEngine.SearchCityTs | lib/search-engine.ts:127-171 | The function never fails, and `count` always equals the number of POIs. There is no error exactly when geocoding found the city and the POI query succeeded, and any error comes with no coordinates and no POIs. An empty geocode gives "geocode_failed" after the geocoding call alone. After a successful geocode the calls are geocode, a 1000 ms pause, then the POI query. |
| SearchEngine.SearchCityPy | src/search_engine.py:76-91 | An empty geocode gives only country, city and "geocode_failed", with no count and no POIs, and the POI query is not made. Exceptions propagate with their own text: a geocoding exception gives its message, and a POI-query failure after a successful geocode gives exactly that query's error. On success the result has the geocoded coordinates and `count` equals the number of POIs. |
| SearchEngine.SearchCityAgree | src/search_engine.py:76-91 | On replies without explicit `null`s both versions make the same calls. The TypeScript result has no error exactly when the Python version succeeds without one, and then the results are equal. Where Python raises, TypeScript reports an error with count 0. |
| SearchEngine.NullElementsDisagree | src/search_engine.py:60 | A `null` element list makes the Python search raise. The TypeScript search instead succeeds with no POIs. |
| SearchEngine.BatchEntry | src/search_engine.py:112-115 | A city's entry is the search result, or on an exception a record with that city's names and the message. |
| SearchEngine.RunBatch | src/search_engine.py:108-118 | The batch gives one entry per city, in registry order, each naming its city, and it never stops early. The calls are each city's calls followed by a pause, city after city. |
| ShopsRoute.Select | app/api/shops/route.ts:12-36 | A non-empty query selects the search. Otherwise a non-empty country and city select the city filter, and a non-empty country alone selects the country filter. |
| ShopsRoute.ShopsGet | app/api/shops/route.ts:4-49 | The response is 400 exactly when there is no non-empty query and no non-empty country, and then the cache is untouched. It is 500 exactly when the catalog must be read and cannot be. Otherwise it is 200 with the selected filter's rows, `count` equal to their number, and the catalog cached. |
| ShopsRoute.EmptyQueryIgnored | app/api/shops/route.ts:12 | An empty `query` behaves exactly like an absent one. |
| ShopsRoute.QueryWins | app/api/shops/route.ts:12-18 | With a non-empty query the country and city parameters make no difference. |
| ShopsRoute.CityAloneRejected | app/api/shops/route.ts:38-41 | A city without a country is answered with 400. |
| ShopsRoute.CachedCatalogServes | lib/shops-data.ts:24-27 | With the catalog cached the file is irrelevant and the route never answers 500. |
| ShopsRoute.CityBranchRefinesCountry | app/api/shops/route.ts:21-36 | The city branch returns exactly the country branch's shops that are in that city. |
| SearchRoute.TsBodyNumber | app/api/search/route.ts:7-20 | The default applies only to an absent member. A `null` member throws the `toString` TypeError, and a number is kept. |
| SearchRoute.PyBodyNumber | src/app.py:32-33 | Absent, `null` and 0 all give the default. Any other number is kept. |
| SearchRoute.ParamNumber | app/api/search/route.ts:37-38 | An absent or empty parameter gives the default. A numeral is kept, including 0. |
| SearchRoute.ZeroRadius | src/app.py:32-38 | A zero radius is kept by the TypeScript body and by both query-string readers. The Flask JSON branch replaces it with 10000. |
| SearchRoute.Searched | app/api/search/route.ts:16-23 | For validated names the response is 200. Its body is exactly the `searchCity` result, which names the requested country and city, and the calls are the search's calls. |
| SearchRoute.PostTs | app/api/search/route.ts:4-30 | An unreadable or `null` body gives 500 with the error message. 400 is returned exactly when a name is missing, `null` or empty. With valid names, 500 is returned exactly when radius or limit is `null`, and its body is the `toString` TypeError text. Every non-200 response makes no remote call. A 200 is the search with the defaulted numbers. |
| SearchRoute.GetTs | app/api/search/route.ts:32-56 | The response is 400 without calls exactly when a name is missing or empty. Otherwise it is the search with the parameters' numbers. |
| SearchRoute.SearchedPy | src/app.py:40-48 | The response is 400 without calls exactly when a name is missing or empty. Otherwise an exception from `search_city` gives 500 with its message, and a result gives 200 with that result unchanged. |
| SearchRoute.PostPy | src/app.py:27-33 | An undecodable body is refused with 400 by the framework. A `null` body counts as `{}`. An object is validated and searched with the falsy-defaulted numbers. No 400 makes a remote call. |
| SearchRoute.GetPy | src/app.py:34-38 | The query string is validated the same way, with absent or empty numbers defaulted. |
| SearchRoute.ValidationAgrees | src/app.py:40-41 | For JSON object bodies, the TypeScript and Flask `POST` handlers refuse the same bodies with 400, and neither makes a call when refusing. For `null` and undecodable bodies they differ: TypeScript answers 500 and Flask 400, as PostTs and PostPy state. |
| SearchRoute.PostHandlersAgree | src/app.py:26-48 | On bodies without `null` members or zero numbers, and on null-free replies, both `POST` handlers make the same calls. A successful TypeScript search gets the identical Flask response. |
| SearchRoute.GetHandlersAgree | src/app.py:34-48 | Both `GET` handlers refuse the same requests and make the same calls. |
| SearchRoute.NullRadiusDiffers | app/api/search/route.ts:7-20 | A `null` radius in a valid TypeScript body is a 500 with no remote call. Flask searches with the default radius instead. |
| Records.Get | lib/shops-data.ts:82 | `obj[k]` finds a value exactly when the key is present. Which value is stated by GetAt and GetPut. |
| Records.Put | lib/shops-data.ts:111 | `obj[k] = v` overwrites an existing key's value in place and leaves every other entry alone. A new key is appended at the end. The keys are the old keys plus `k`, and unique keys stay unique. |
| Records.GetAt | app/api/cities/route.ts:11-14 | With unique keys, looking up an entry's key finds that entry's value. |
| Records.GetPut | lib/shops-data.ts:111 | After `obj[k] = v`, reading `k` gives `v` and reading any other key gives what it gave before. |
| Seqs.Filter | lib/shops-data.ts:53 | `Array.prototype.filter` keeps an element exactly when it satisfies the test, in order, as a subsequence. That each kept element keeps its multiplicity is stated by FilterMultiplicity. |
| Seqs.FilterMultiplicity | lib/shops-data.ts:53 | Each element satisfying the test occurs in the result as often as in the input, and every other element occurs zero times. |
| Seqs.FilterMapSource | lib/search-engine.ts:44-49 | Every pushed value comes from some element. |
| Seqs.FilterMapAll | lib/search-engine.ts:44-49 | When every element yields a value, the result is exactly those values, in order. |
| Seqs.SliceTo | lib/search-engine.ts:114 | `slice(0, n)` / `[:n]` keeps a prefix whose length follows the JavaScript and Python rules for non-negative and negative `n`. |
| Strings.Trim | lib/search-engine.ts:45 | The result has no white space at either end and only characters of the input. It is empty exactly for an all-white-space input, and an already trimmed input is unchanged. |
| Strings.Lower | lib/shops-data.ts:65-73 | `toLowerCase` keeps the length. Position by position, each ASCII capital becomes its own small letter and every other character is kept, so no ASCII capital remains. |
| Strings.Contains | lib/shops-data.ts:69 | `includes` is true exactly when the needle occurs contiguously in the text. |
| Strings.Split | lib/search-engine.ts:40 | `split` gives at least one piece, no piece holds the separator, and joining the pieces gives back the text. |
| Strings.SplitJoin | lib/search-engine.ts:45 | Splitting a join of separator-free pieces gives back the pieces. |
| Strings.Sort | app/api/cities/route.ts:19-21 | `sort()` / `sorted` gives a sorted permutation in the code-unit order. |

## Left out

- Reading files, `process.cwd()` paths, HTTP, JSON encoding and decoding, and the sleeps are left out. File contents, reader rows and service replies are parameters, and the sleeps appear only as `Pause` entries in the call list.
- The CSV parsers (`csv-parse` with its numeric casts in `loadShops`, and `csv.DictReader`) are library code. The model takes their output rows as given.
- The Overpass query text and the Nominatim query parameters are not modelled. A call records only the coordinates, radius and limit (or the names).
- Number parsing is not modelled: `parseFloat`, `parseInt`, `float()`, `int()`, NaN, and strings that are not numerals. Coordinates are reals, "falsy" means missing or 0, and numeric parameters are given as integers.
- ShopsData.SearchShops: lower-casing covers ASCII letters only. Unicode case mapping is not modelled.
- CityFile.LoadCitiesPy: Python's `str.strip()` uses the same `Strings.Trim` set as JavaScript's `trim()`, but the real sets differ. Python does not strip U+FEFF. It does strip U+001C to U+001F and U+0085, which JavaScript keeps. For fields holding those characters at an end, the stripped values (and PythonKeepsBlankCity's blank city) are not modelled exactly.
- Strings.Trim: the white-space set covers the ASCII and common Unicode spaces, not every Unicode space separator. The contract says the result is trimmed, keeps only input characters, and is empty exactly for blank input. It does not say which slice is returned.
- Strings.Sort: strings are compared character by character. Where UTF-16 code units and code points order differently (characters outside the Basic Multilingual Plane), that difference is not modelled.
- Records: JavaScript enumerates integer-like keys such as "1" before other keys, and that rule is not modelled. Keys inherited from `Object.prototype` (a country named "constructor", say) are not modelled either: the route code treats such a value as an existing list.
- SearchEngine.SearchCityPy: a first geocoding candidate that is an empty object, which Python treats as no match, is not modelled. A missing `lat`/`lon` key (`KeyError`) is not modelled either: geocoding replies carry numbers.
- SearchEngine.SearchCityTs: non-`Error` throws ("Unknown error") cannot arise from the modelled replies and are not modelled.
- Python exception texts for HTTP failures are carried in the reply (`NotOk.text`) rather than built, because the HTTP library formats them.
- SearchEngine.OverpassAgree: a POI coordinate is `Option<real>`. A missing coordinate is one value in the model but two outputs in the programs. TypeScript gives `undefined`, which JSON serialisation drops. Python gives `None`, which serialises as `"lat": null`. So the "same POIs" of OverpassAgree and SearchCityAgree, and the identical response of PostHandlersAgree, hold for the modelled values but not for the JSON text of an element with neither its own nor a center coordinate.
- SearchRoute.PostPy: JSON bodies that are neither an object nor `null` are not modelled. A falsy one (`0`, `""`, `[]`, `false`) counts as `{}` in Flask and gets 400. A truthy one (`"x"`, `5`, `[1]`) makes `body.get` raise `AttributeError` outside the `try`, so Flask answers 500. TypeScript destructures such a body to missing names and answers 400.
- SearchRoute.PostTs: JSON members of non-string or non-integer type are not modelled.
- SearchRoute.PostPy: Flask's own error page for an undecodable body is modelled only as `BadRequestPage`.
- Logging is not modelled: `console.error` in the shops and countries routes (app/api/shops/route.ts:43), and the script's progress and result `print`s (src/search_engine.py:105, 111, 120). None of them changes a returned value.
- The single-city mode of the Python script (`--country`/`--city`) and its argument parsing are not modelled. That mode prints `search_city` for one city, which is modelled.
- The countries route, the pages and the browser script are not modelled: they pass data through or render it. The test file depends on the real data file and is not modelled.

=== FILE: city_file.dfy ===
/** The city registry `data/cities.csv`: the TypeScript loader `loadCities`
    (lib/search-engine.ts), which splits the text into lines itself, and the
    Python loader `load_cities` (src/search_engine.py), which maps the rows a
    `csv.DictReader` produced. The file text and the reader rows are inputs. */
module CityFile {
  import opened Wrappers
  import opened Seqs
  import opened Strings

  datatype City = City(country: string, city: string)

  /** A field that the file format can carry and the TypeScript loader can emit:
      non-empty, trimmed, free of the field and line separators. */
  predicate Storable(field: string) {
    |field| > 0 && IsTrimmed(field) && ',' !in field && '\n' !in field
  }

  predicate StorableCity(c: City) {
    Storable(c.country) && Storable(c.city)
  }

  // ---------------------------------------------------------------------------
  // TypeScript: loadCities
  // ---------------------------------------------------------------------------

  /** `line.trim()` is truthy. */
  predicate HasText(line: string) {
    |Trim(line)| > 0
  }

  /** `fileContent.split('\n').filter(line => line.trim())`. */
  function NonBlankLines(text: string): (lines: seq<string>)
    ensures forall l :: l in lines ==> HasText(l) && '\n' !in l
  {
    var pieces := Split(text, '\n');
    var lines := Filter(pieces, HasText);
    assert forall l :: l in lines ==> '\n' !in l by {
      forall l | l in lines ensures '\n' !in l {
        var i :| 0 <= i < |pieces| && pieces[i] == l;
      }
    }
    lines
  }

  /** A line holding no newline is kept exactly when it has text. */
  lemma NonBlankLinesLast(l: string)
    requires '\n' !in l
    ensures NonBlankLines(l) == if HasText(l) then [l] else []
  {
    SplitNone(l, '\n');
    assert [l][..0] == [];
  }

  /** Lines are kept in text order: the first line comes first when it has
      text, and the rest of the text contributes its own non-blank lines. */
  lemma NonBlankLinesCons(l: string, rest: string)
    requires '\n' !in l
    ensures NonBlankLines(l + "\n" + rest) == (if HasText(l) then [l] else []) + NonBlankLines(rest)
  {
    var text := l + "\n" + rest;
    assert text == l + ['\n'] + rest;
    SplitCons(l, '\n', rest);
    assert Split(text, '\n') == [l] + Split(rest, '\n');
    FilterAppend([l], Split(rest, '\n'), HasText);
    assert Filter([l], HasText) == if HasText(l) then [l] else [] by {
      assert [l][..0] == [];
    }
  }

  /** The body of the loop for one line: the first two comma-separated fields,
      trimmed; a missing second field is `undefined`, which is falsy like "". */
  function ParseRow(line: string): (r: Option<City>)
    ensures r.Some? ==> |r.value.country| > 0 && IsTrimmed(r.value.country) && ',' !in r.value.country
    ensures r.Some? ==> |r.value.city| > 0 && IsTrimmed(r.value.city) && ',' !in r.value.city
    ensures r.Some? && '\n' !in line ==> StorableCity(r.value)
  {
    var fields := Split(line, ',');
    var country := Trim(fields[0]);
    var city := if |fields| > 1 then Trim(fields[1]) else "";
    assert '\n' !in line ==> '\n' !in country && '\n' !in city by {
      if '\n' in country {
        assert '\n' in fields[0];
        assert '\n' in Join(fields, ',') by { JoinHasPiece(fields, ',', 0); }
      }
      if '\n' in city {
        assert '\n' in fields[1];
        assert '\n' in Join(fields, ',') by { JoinHasPiece(fields, ',', 1); }
      }
    }
    if |country| > 0 && |city| > 0 then Some(City(country, city)) else None
  }

  /** A line with two comma-free fields yields their trimmed values, exactly
      when both are non-blank: padding and a trailing carriage return go. */
  lemma ParseRowFields(a: string, b: string)
    requires ',' !in a && ',' !in b
    ensures ParseRow(a + "," + b) == if |Trim(a)| > 0 && |Trim(b)| > 0 then Some(City(Trim(a), Trim(b))) else None
  {
    assert a + "," + b == a + [','] + b;
    SplitCons(a, ',', b);
    SplitNone(b, ',');
  }

  /** A line without a comma has no city field and yields no row. */
  lemma ParseRowOneField(a: string)
    requires ',' !in a
    ensures ParseRow(a) == None
  {
    SplitNone(a, ',');
  }

  /** Every character of a piece occurs in the joined text. */
  lemma {:induction false} JoinHasPiece(parts: seq<string>, sep: char, i: nat)
    requires i < |parts|
    ensures forall c :: c in parts[i] ==> c in Join(parts, sep)
  {
    if |parts| > 1 {
      if i > 0 {
        JoinHasPiece(parts[1..], sep, i - 1);
      }
    }
  }

  /** The loop over the data lines: each line contributes its row when both
      fields are present. */
  function ParseRows(lines: seq<string>): (r: seq<City>)
    ensures |r| <= |lines|
  {
    FilterMap(lines, ParseRow)
  }

  /** Every row comes from one of the lines. */
  lemma ParseRowsSource(lines: seq<string>, c: City)
    requires c in ParseRows(lines)
    ensures exists i :: 0 <= i < |lines| && ParseRow(lines[i]) == Some(c)
  {
    FilterMapSource(lines, ParseRow, c);
  }

  /** Rows come out in line order: parsing two blocks of lines is parsing each. */
  lemma ParseRowsAppend(a: seq<string>, b: seq<string>)
    ensures ParseRows(a + b) == ParseRows(a) + ParseRows(b)
  {
    FilterMapAppend(a, b, ParseRow);
  }

  /** `loadCities`, given the file's text: the first non-blank line is the
      header and is skipped by position; every emitted city has storable
      fields, and there is at most one per later non-blank line. */
  function LoadCities(text: string): (r: seq<City>)
    ensures forall i :: 0 <= i < |r| ==> StorableCity(r[i])
    ensures |r| <= if |NonBlankLines(text)| == 0 then 0 else |NonBlankLines(text)| - 1
  {
    var lines := NonBlankLines(text);
    if |lines| == 0 then []
    else
      var r := ParseRows(lines[1..]);
      assert forall i :: 0 <= i < |r| ==> StorableCity(r[i]) by {
        forall i | 0 <= i < |r| ensures StorableCity(r[i]) {
          ParseRowsSource(lines[1..], r[i]);
          var k :| 0 <= k < |lines[1..]| && ParseRow(lines[1..][k]) == Some(r[i]);
          assert lines[1..][k] in lines;
        }
      }
      r
  }

  /** Every emitted city comes from a non-blank line after the header. */
  lemma LoadCitiesSource(text: string, c: City)
    requires c in LoadCities(text)
    ensures exists j :: 1 <= j < |NonBlankLines(text)| && ParseRow(NonBlankLines(text)[j]) == Some(c)
  {
    var lines := NonBlankLines(text);
    ParseRowsSource(lines[1..], c);
    var i :| 0 <= i < |lines[1..]| && ParseRow(lines[1..][i]) == Some(c);
    assert lines[i + 1] == lines[1..][i];
  }

  /** Text after the second comma of a line is ignored. */
  lemma ExtraFieldsIgnored(a: string, b: string, rest: string)
    requires ',' !in a && ',' !in b
    ensures ParseRow(a + "," + b + "," + rest) == ParseRow(a + "," + b)
  {
    var long := a + [','] + (b + [','] + rest);
    var short := a + [','] + b;
    assert a + "," + b + "," + rest == long;
    assert a + "," + b == short;
    SplitCons(a, ',', b + [','] + rest);
    SplitCons(b, ',', rest);
    SplitCons(a, ',', b);
    SplitNone(b, ',');
    var f1 := Split(long, ',');
    var f2 := Split(short, ',');
    assert f1[0] == a == f2[0] && f1[1] == b == f2[1];
  }

  /** Whatever the first non-blank line says, even a well-formed row, it is
      dropped as the header and the rest of the text is parsed line by line. */
  lemma HeaderSkipped(header: string, body: string)
    requires '\n' !in header && HasText(header)
    ensures LoadCities(header + "\n" + body) == ParseRows(NonBlankLines(body))
  {
    assert header + "\n" + body == header + ['\n'] + body;
    SplitCons(header, '\n', body);
    FilterAppend([header], Split(body, '\n'), HasText);
    assert Filter([header], HasText) == [header] by {
      assert [header][..0] == [];
    }
    assert NonBlankLines(header + "\n" + body) == [header] + NonBlankLines(body);
  }

  /** Blank and white-space-only lines are removed before the header is chosen. */
  lemma LeadingBlankLineIgnored(blank: string, text: string)
    requires '\n' !in blank && AllSpace(blank)
    ensures LoadCities(blank + "\n" + text) == LoadCities(text)
  {
    assert blank + "\n" + text == blank + ['\n'] + text;
    SplitCons(blank, '\n', text);
    FilterAppend([blank], Split(text, '\n'), HasText);
    assert Filter([blank], HasText) == [] by {
      assert [blank][..0] == [];
    }
    assert NonBlankLines(blank + "\n" + text) == NonBlankLines(text);
  }

  /** The text line a city is written as. */
  function RowLine(c: City): string {
    c.country + "," + c.city
  }

  function RowLines(cities: seq<City>): (lines: seq<string>)
    ensures |lines| == |cities|
    ensures forall i :: 0 <= i < |cities| ==> lines[i] == RowLine(cities[i])
  {
    seq(|cities|, i requires 0 <= i < |cities| => RowLine(cities[i]))
  }

  /** A registry file: a header line, one line per city, and a final newline. */
  function Render(header: string, cities: seq<City>): string {
    Join([header] + RowLines(cities) + [""], '\n')
  }

  lemma ParseRowLine(c: City)
    requires StorableCity(c)
    ensures ParseRow(RowLine(c)) == Some(c)
    ensures HasText(RowLine(c)) && '\n' !in RowLine(c)
  {
    var line := RowLine(c);
    assert line == c.country + [','] + c.city;
    SplitCons(c.country, ',', c.city);
    SplitNone(c.city, ',');
    assert line[0] == c.country[0];
    assert !AllSpace(line) by {
      assert !IsSpace(line[0]);
    }
    assert '\n' !in line by {
      assert forall ch :: ch in line ==> ch in c.country || ch == ',' || ch in c.city;
    }
  }

  /** Lines that each yield a row give those rows, in order. */
  lemma ParseRowsAll(lines: seq<string>, cities: seq<City>)
    requires |lines| == |cities|
    requires forall i :: 0 <= i < |lines| ==> ParseRow(lines[i]) == Some(cities[i])
    ensures ParseRows(lines) == cities
  {
    FilterMapAll(lines, ParseRow, cities);
  }

  lemma ParseRowLines(cities: seq<City>)
    requires forall i :: 0 <= i < |cities| ==> StorableCity(cities[i])
    ensures ParseRows(RowLines(cities)) == cities
  {
    forall i | 0 <= i < |cities| ensures ParseRow(RowLines(cities)[i]) == Some(cities[i]) {
      ParseRowLine(cities[i]);
    }
    ParseRowsAll(RowLines(cities), cities);
  }

  /** Splitting a rendered registry at newlines gives back its lines. */
  lemma RenderedPieces(header: string, cities: seq<City>)
    requires '\n' !in header
    requires forall i :: 0 <= i < |cities| ==> StorableCity(cities[i])
    ensures Split(Render(header, cities), '\n') == [header] + RowLines(cities) + [""]
  {
    var rows := RowLines(cities);
    var pieces := [header] + rows + [""];
    forall i | 0 <= i < |pieces| ensures '\n' !in pieces[i] {
      if 0 < i <= |rows| {
        ParseRowLine(cities[i - 1]);
      }
    }
    SplitJoin(pieces, '\n');
  }

  /** The non-blank lines of a rendered registry are its header and its rows. */
  lemma RenderedLines(header: string, cities: seq<City>)
    requires '\n' !in header && HasText(header)
    requires forall i :: 0 <= i < |cities| ==> StorableCity(cities[i])
    ensures NonBlankLines(Render(header, cities)) == [header] + RowLines(cities)
  {
    var lines := [header] + RowLines(cities);
    RenderedPieces(header, cities);
    forall i | 0 <= i < |lines| ensures HasText(lines[i]) {
      if i > 0 {
        ParseRowLine(cities[i - 1]);
      }
    }
    FilterAppend(lines, [""], HasText);
    FilterAll(lines, HasText);
    assert Filter([""], HasText) == [] by {
      assert [""][..0] == [];
      assert !HasText("");
    }
  }

  /** Loading a rendered registry gives back exactly its cities, in order. */
  lemma RoundTrip(header: string, cities: seq<City>)
    requires '\n' !in header && HasText(header)
    requires forall c :: c in cities ==> StorableCity(c)
    ensures LoadCities(Render(header, cities)) == cities
  {
    assert forall i :: 0 <= i < |cities| ==> StorableCity(cities[i]);
    RenderedLines(header, cities);
    assert ([header] + RowLines(cities))[1..] == RowLines(cities);
    ParseRowLines(cities);
  }

  // ---------------------------------------------------------------------------
  // Python: load_cities
  // ---------------------------------------------------------------------------

  /** A row of `csv.DictReader`: header name to field; a short line leaves the
      missing fields `None`. */
  type ReaderRow = map<string, Option<string>>

  const KeyErrorCountry := "'Country'"
  const KeyErrorCity := "'City'"
  const NoneStrip := "'NoneType' object has no attribute 'strip'"

  /** The exception `r['Country'].strip()` and then `r['City'].strip()` raise
      on one row, if any: the country column is read first. */
  function RowError(row: ReaderRow): (e: Option<string>)
    ensures e.None? <==> "Country" in row && "City" in row && row["Country"].Some? && row["City"].Some?
    ensures "Country" !in row ==> e == Some(KeyErrorCountry)
    ensures "Country" in row && row["Country"].None? ==> e == Some(NoneStrip)
    ensures e == Some(KeyErrorCity) ==> "Country" in row && row["Country"].Some? && "City" !in row
  {
    if "Country" !in row then Some(KeyErrorCountry)
    else if row["Country"].None? then Some(NoneStrip)
    else if "City" !in row then Some(KeyErrorCity)
    else if row["City"].None? then Some(NoneStrip)
    else None
  }

  /** `load_cities`: one stripped entry per reader row, in order, with no
      filtering; a missing column raises `KeyError`, a missing field `AttributeError`. */
  function LoadCitiesPy(rows: seq<ReaderRow>): (r: Result<seq<City>, string>)
    ensures r.Success? <==> forall i :: 0 <= i < |rows| ==>
      "Country" in rows[i] && "City" in rows[i] && rows[i]["Country"].Some? && rows[i]["City"].Some?
    ensures r.Success? ==> |r.value| == |rows| && forall i :: 0 <= i < |rows| ==>
      r.value[i] == City(Trim(rows[i]["Country"].value), Trim(rows[i]["City"].value))
    ensures r.Failure? ==> r.error in {KeyErrorCountry, KeyErrorCity, NoneStrip}
  {
    if |rows| == 0 then Success([])
    else
      var row := rows[0];
      match RowError(row)
      case Some(e) => Failure(e)
      case None =>
        match LoadCitiesPy(rows[1..])
        case Failure(e) => Failure(e)
        case Success(rest) =>
          Success([City(Trim(row["Country"].value), Trim(row["City"].value))] + rest)
  }

  /** The loop stops at the first row that raises, with that row's exception. */
  lemma {:induction false} LoadCitiesPyFirstError(rows: seq<ReaderRow>)
    ensures LoadCitiesPy(rows).Failure? ==>
      exists i :: 0 <= i < |rows| && RowError(rows[i]).Some?
        && (forall j :: 0 <= j < i ==> RowError(rows[j]).None?)
        && LoadCitiesPy(rows).error == RowError(rows[i]).value
  {
    if |rows| > 0 && RowError(rows[0]).None? && LoadCitiesPy(rows).Failure? {
      var rest := rows[1..];
      LoadCitiesPyFirstError(rest);
      var k :| 0 <= k < |rest| && RowError(rest[k]).Some?
        && (forall j :: 0 <= j < k ==> RowError(rest[j]).None?)
        && LoadCitiesPy(rest).error == RowError(rest[k]).value;
      assert rows[k + 1] == rest[k];
      forall j | 0 <= j < k + 1 ensures RowError(rows[j]).None? {
        if j > 0 {
          assert rows[j] == rest[j - 1];
        }
      }
    }
  }

  /** The Python loader keeps a row whose city is blank, with an empty city. */
  lemma PythonKeepsBlankCity(country: string, blank: string)
    requires AllSpace(blank)
    ensures LoadCitiesPy([map["Country" := Some(country), "City" := Some(blank)]])
            == Success([City(Trim(country), "")])
  {
    var row: ReaderRow := map["Country" := Some(country), "City" := Some(blank)];
    assert "Country" in row && row["Country"] == Some(country);
    assert "City" in row && row["City"] == Some(blank);
    var r := LoadCitiesPy([row]);
    assert r.Success?;
    assert r.value == [City(Trim(country), "")];
  }

  /** A line whose city field is blank yields no row. */
  lemma BlankCityLine(country: string, blank: string)
    requires ',' !in country && ',' !in blank && AllSpace(blank)
    ensures ParseRow(country + [','] + blank) == None
    ensures ParseRows([country + [','] + blank]) == []
  {
    var line := country + [','] + blank;
    SplitCons(country, ',', blank);
    SplitNone(blank, ',');
    assert ParseRow(line) == None;
    assert [line][..0] == [];
  }

  /** A line that starts with a storable field has text and, when the rest is
      newline-free, no newline. */
  lemma FieldLine(country: string, rest: string)
    requires Storable(country) && '\n' !in rest
    ensures HasText(country + rest) && '\n' !in country + rest
  {
    var line := country + rest;
    assert line[0] == country[0];
    assert !IsSpace(line[0]);
    assert forall ch :: ch in line ==> ch in country || ch in rest;
  }

  /** One line and a final newline leave that one line. */
  lemma SingleLine(line: string)
    requires '\n' !in line && HasText(line)
    ensures NonBlankLines(line + ['\n']) == [line]
  {
    assert line + ['\n'] == line + ['\n'] + "";
    SplitCons(line, '\n', "");
    assert Split("", '\n') == [""];
    FilterAppend([line], [""], HasText);
    assert [line][..0] == [] && [""][..0] == [];
    assert !HasText("");
  }

  /** A file of a header and one data line parses just that line. */
  lemma OneDataLine(header: string, line: string)
    requires '\n' !in header && HasText(header)
    requires '\n' !in line && HasText(line)
    ensures LoadCities(header + "\n" + line + "\n") == ParseRows([line])
  {
    assert header + "\n" + line + "\n" == header + "\n" + (line + ['\n']);
    HeaderSkipped(header, line + ['\n']);
    SingleLine(line);
  }

  /** The TypeScript loader drops the same row: a file whose only data line
      has a blank city loads as no cities at all. */
  lemma TypeScriptDropsBlankCity(header: string, country: string, blank: string)
    requires '\n' !in header && HasText(header)
    requires Storable(country) && ',' !in blank && '\n' !in blank && AllSpace(blank)
    ensures LoadCities(header + "\n" + country + "," + blank + "\n") == []
  {
    var line := country + [','] + blank;
    assert header + "\n" + country + "," + blank + "\n" == header + "\n" + line + "\n";
    FieldLine(country, [','] + blank);
    assert country + ([','] + blank) == line;
    OneDataLine(header, line);
    BlankCityLine(country, blank);
  }
}

=== FILE: country_map.dfy ===
/** The country-to-cities map behind the city picker: the TypeScript
    `GET /api/cities` route (app/api/cities/route.ts) and the Flask `index`
    page with `build_country_map` (src/app.py). Both group the registry's
    cities by country in registry order, then order the countries and each
    country's cities by code unit. */
module CountryMap {
  import opened Wrappers
  import opened Seqs
  import opened Strings
  import opened Records
  import opened CityFile

  /** The names of the cities of `country`, in registry order, duplicates kept. */
  function CityNamesOf(cities: seq<City>, country: string): (names: seq<string>)
    ensures |names| <= |cities|
    ensures |names| > 0 ==> exists i :: 0 <= i < |cities| && cities[i].country == country
  {
    if |cities| == 0 then []
    else
      var last := cities[|cities| - 1];
      var init := CityNamesOf(cities[..|cities| - 1], country);
      if last.country == country then init + [last.city] else init
  }

  function CityCount(names: seq<string>): nat {
    |names|
  }

  /** What grouping the first cities of the registry has built: every city's
      country is a key, and each key holds exactly its cities' names. */
  ghost predicate Groups(acc: Record<seq<string>>, cities: seq<City>) {
    && UniqueKeys(acc)
    && (forall i :: 0 <= i < |cities| ==> cities[i].country in Keys(acc))
    && (forall j :: 0 <= j < |acc| ==> acc[j].1 == CityNamesOf(cities, acc[j].0) && |acc[j].1| > 0)
    && Total(acc, CityCount) == |cities|
  }

  lemma {:induction false} NoCityNames(cities: seq<City>, country: string)
    requires forall i :: 0 <= i < |cities| ==> cities[i].country != country
    ensures CityNamesOf(cities, country) == []
  {
    if |cities| > 0 {
      NoCityNames(cities[..|cities| - 1], country);
    }
  }

  /** One step of the loop: `(countryMap[country] ||= []).push(city)` /
      `country_map.setdefault(country, []).append(city)`. */
  function AddCity(acc: Record<seq<string>>, c: City): Record<seq<string>> {
    Put(acc, c.country, Get(acc, c.country).GetOr([]) + [c.city])
  }

  lemma GroupStep(acc: Record<seq<string>>, init: seq<City>, c: City)
    requires Groups(acc, init)
    ensures Groups(AddCity(acc, c), init + [c])
  {
    var cities := init + [c];
    var acc' := AddCity(acc, c);
    assert cities[..|cities| - 1] == init;
    var names := Get(acc, c.country).GetOr([]);
    TotalPut(acc, c.country, names + [c.city], CityCount);
    forall i | 0 <= i < |cities| ensures cities[i].country in Keys(acc') {
      if i < |init| {
        assert init[i].country in Keys(acc);
      }
    }
    if c.country !in Keys(acc) {
      NoCityNames(init, c.country);
      forall j | 0 <= j < |acc'| ensures acc'[j].1 == CityNamesOf(cities, acc'[j].0) && |acc'[j].1| > 0 {
        if j < |acc| {
          assert Keys(acc)[j] == acc[j].0;
        }
      }
    } else {
      var n := IndexOf(acc, c.country);
      forall j | 0 <= j < |acc'| ensures acc'[j].1 == CityNamesOf(cities, acc'[j].0) && |acc'[j].1| > 0 {
        if j != n {
          assert acc'[j] == acc[j];
          assert acc[j].0 != c.country;
        }
      }
    }
  }

  /** The grouping loop over the registry, in registry order. */
  function GroupByCountry(cities: seq<City>): (m: Record<seq<string>>)
    ensures Groups(m, cities)
  {
    if |cities| == 0 then []
    else
      var init := cities[..|cities| - 1];
      assert cities == init + [cities[|cities| - 1]];
      var acc := GroupByCountry(init);
      GroupStep(acc, init, cities[|cities| - 1]);
      AddCity(acc, cities[|cities| - 1])
  }

  /** The grouping keys are exactly the countries of the registry. */
  lemma GroupKeys(cities: seq<City>, country: string)
    ensures country in Keys(GroupByCountry(cities)) <==> exists i :: 0 <= i < |cities| && cities[i].country == country
  {
    var m := GroupByCountry(cities);
    if country in Keys(m) {
      var j := IndexOf(m, country);
      assert |CityNamesOf(cities, m[j].0)| > 0;
    }
  }

  /** Every key holds all of its country's cities, in registry order. */
  lemma GroupValues(cities: seq<City>, country: string)
    requires country in Keys(GroupByCountry(cities))
    ensures Get(GroupByCountry(cities), country) == Some(CityNamesOf(cities, country))
  {
    var m := GroupByCountry(cities);
    var j := IndexOf(m, country);
    assert m[j].1 == CityNamesOf(cities, m[j].0);
  }

  lemma {:induction false} KeyHasCities(cities: seq<City>, country: string, i: int)
    requires 0 <= i < |cities| && cities[i].country == country
    ensures |CityNamesOf(cities, country)| > 0
  {
    if i < |cities| - 1 {
      KeyHasCities(cities[..|cities| - 1], country, i);
    }
  }

  /** The entry the sorted map holds for key `k`. */
  function SortedEntry(m: Record<seq<string>>, k: string): (e: (string, seq<string>))
    ensures e.0 == k && Sorted(e.1) && multiset(e.1) == multiset(Get(m, k).GetOr([]))
  {
    (k, Sort(Get(m, k).GetOr([])))
  }

  /** `Object.keys(m).sort().reduce(…, {})` with each list sorted, and
      `{k: sorted(v) for k, v in sorted(m.items())}`. */
  function SortCountryMap(m: Record<seq<string>>): (r: Record<seq<string>>)
    ensures Sorted(Keys(r)) && multiset(Keys(r)) == multiset(Keys(m))
    ensures UniqueKeys(m) ==> UniqueKeys(r)
    ensures forall i :: 0 <= i < |r| ==> r[i].0 in Keys(m)
    ensures forall i :: 0 <= i < |r| ==> Sorted(r[i].1) && multiset(r[i].1) == multiset(Get(m, r[i].0).value)
  {
    var ks := Sort(Keys(m));
    var r := seq(|ks|, i requires 0 <= i < |ks| => SortedEntry(m, ks[i]));
    KeysOfSorted(m, ks, r);
    r
  }

  lemma KeysOfSorted(m: Record<seq<string>>, ks: seq<string>, r: Record<seq<string>>)
    requires Sorted(ks) && multiset(ks) == multiset(Keys(m))
    requires |r| == |ks| && forall i :: 0 <= i < |ks| ==> r[i] == SortedEntry(m, ks[i])
    ensures Sorted(Keys(r)) && multiset(Keys(r)) == multiset(Keys(m))
    ensures UniqueKeys(m) ==> UniqueKeys(r)
    ensures forall i :: 0 <= i < |r| ==> r[i].0 in Keys(m)
    ensures forall i :: 0 <= i < |r| ==> Sorted(r[i].1) && multiset(r[i].1) == multiset(Get(m, r[i].0).value)
  {
    assert Keys(r) == ks;
    forall i | 0 <= i < |r| ensures r[i].0 in Keys(m) {
      assert ks[i] in multiset(ks);
    }
    if UniqueKeys(m) {
      assert Distinct(Keys(m));
      DistinctMultiset(Keys(m));
      DistinctMultiset(ks);
      assert Distinct(ks);
    }
  }

  /** The map both pages show, from the registry's cities. */
  function CountryMapOf(cities: seq<City>): (r: Record<seq<string>>)
    ensures Sorted(Keys(r)) && UniqueKeys(r)
    ensures forall i :: 0 <= i < |cities| ==> cities[i].country in Keys(r)
    ensures forall j :: 0 <= j < |r| ==> exists i :: 0 <= i < |cities| && cities[i].country == r[j].0
    ensures forall j :: 0 <= j < |r| ==>
      Sorted(r[j].1) && multiset(r[j].1) == multiset(CityNamesOf(cities, r[j].0))
  {
    var g := GroupByCountry(cities);
    var r := SortCountryMap(g);
    forall i | 0 <= i < |cities| ensures cities[i].country in Keys(r) {
      CountryKept(g, r, cities[i].country);
    }
    forall j | 0 <= j < |r|
      ensures (exists i :: 0 <= i < |cities| && cities[i].country == r[j].0)
      ensures multiset(r[j].1) == multiset(CityNamesOf(cities, r[j].0))
    {
      GroupKeys(cities, r[j].0);
      GroupValues(cities, r[j].0);
    }
    r
  }

  lemma CountryKept(g: Record<seq<string>>, r: Record<seq<string>>, k: string)
    requires multiset(Keys(r)) == multiset(Keys(g))
    requires k in Keys(g)
    ensures k in Keys(r)
  {
    assert k in multiset(Keys(g));
  }

  /** Each country's list counts its cities, with repeats. */
  lemma CountryListLength(cities: seq<City>, j: int)
    requires 0 <= j < |CountryMapOf(cities)|
    ensures |CountryMapOf(cities)[j].1| == |CityNamesOf(cities, CountryMapOf(cities)[j].0)|
  {
    var r := CountryMapOf(cities);
    assert |multiset(r[j].1)| == |multiset(CityNamesOf(cities, r[j].0))|;
  }

  /** The body of `GET /api/cities`: the map, or an error object. */
  datatype CitiesBody = CountryMapBody(countries: Record<seq<string>>) | CitiesError(error: string)

  const LoadFailed := "Failed to load cities"

  /** Every country of the loaded map is a non-empty trimmed name with at least one city. */
  lemma LoadedEntries(text: string, j: int)
    requires 0 <= j < |CountryMapOf(LoadCities(text))|
    ensures var r := CountryMapOf(LoadCities(text));
            |r[j].0| > 0 && IsTrimmed(r[j].0) && |r[j].1| > 0
  {
    var cities := LoadCities(text);
    var r := CountryMapOf(cities);
    var i :| 0 <= i < |cities| && cities[i].country == r[j].0;
    assert cities[i] in cities;
    KeyHasCities(cities, r[j].0, i);
    CountryListLength(cities, j);
  }

  /** `GET /api/cities`, given the outcome of reading the registry file: 500
      when it cannot be read, otherwise the sorted map of the loaded cities. */
  function CitiesGet(file: Result<string, string>): (resp: Http<CitiesBody>)
    ensures file.Failure? <==> resp.status == 500
    ensures file.Failure? ==> resp.body == CitiesError(LoadFailed)
    ensures file.Success? ==> (resp.status == 200 && resp.body.CountryMapBody?
      && Sorted(Keys(resp.body.countries)) && UniqueKeys(resp.body.countries)
      && resp.body.countries == CountryMapOf(LoadCities(file.value)))
  {
    match file
    case Failure(_) => Http(500, CitiesError(LoadFailed))
    case Success(text) => Http(200, CountryMapBody(CountryMapOf(LoadCities(text))))
  }

  /** The Flask `index` page's map, given the reader's rows (or the failure to
      open the file): loading errors propagate, otherwise the sorted map. */
  function IndexMap(rows: Result<seq<ReaderRow>, string>): (r: Result<Record<seq<string>>, string>)
    ensures r.Success? <==> rows.Success? && LoadCitiesPy(rows.value).Success?
    ensures r.Success? ==> r.value == CountryMapOf(LoadCitiesPy(rows.value).value)
    ensures rows.Failure? ==> r == Failure(rows.error)
    ensures rows.Success? && LoadCitiesPy(rows.value).Failure? ==> r == Failure(LoadCitiesPy(rows.value).error)
  {
    match rows
    case Failure(e) => Failure(e)
    case Success(rs) =>
      match LoadCitiesPy(rs)
      case Failure(e) => Failure(e)
      case Success(cities) => Success(CountryMapOf(cities))
  }

  /** When the two loaders agree on the cities, the two pages serve the same
      map. It holds by construction: both routes build the map with
      `CountryMapOf`, so unfolding them is the whole proof. */
  lemma PagesAgree(text: string, rows: seq<ReaderRow>)
    requires LoadCitiesPy(rows) == Success(LoadCities(text))
    ensures CitiesGet(Success(text)).body == CountryMapBody(IndexMap(Success(rows)).value)
  {
  }
}

=== FILE: records.dfy ===
/** Plain JavaScript objects (`Record<string, V>`) and Python dicts as the code
    uses them: string keys, each present once, enumerated in insertion order —
    the order `Object.keys` and JSON serialisation follow. */
module Records {
  import opened Wrappers

  type Record<V> = seq<(string, V)>

  function Keys<V>(r: Record<V>): (ks: seq<string>)
    ensures |ks| == |r|
    ensures forall i :: 0 <= i < |r| ==> ks[i] == r[i].0
  {
    seq(|r|, i requires 0 <= i < |r| => r[i].0)
  }

  predicate UniqueKeys<V>(r: Record<V>) {
    forall i, j :: 0 <= i < j < |r| ==> r[i].0 != r[j].0
  }

  /** The position of the first entry with key `k`. */
  function IndexOf<V>(r: Record<V>, k: string): (j: nat)
    requires k in Keys(r)
    ensures j < |r| && r[j].0 == k
    ensures forall i :: 0 <= i < j ==> r[i].0 != k
  {
    if r[0].0 == k then 0
    else
      assert Keys(r) == [r[0].0] + Keys(r[1..]);
      1 + IndexOf(r[1..], k)
  }

  /** With unique keys, the entry at `i` is the one its key finds. */
  lemma IndexOfAt<V>(r: Record<V>, i: int)
    requires UniqueKeys(r)
    requires 0 <= i < |r|
    ensures r[i].0 in Keys(r) && IndexOf(r, r[i].0) == i
  {
    assert Keys(r)[i] == r[i].0;
  }

  /** `obj[k]`: the value stored under `k`, if any. */
  function Get<V>(r: Record<V>, k: string): (v: Option<V>)
    ensures v.Some? <==> k in Keys(r)
  {
    if k in Keys(r) then Some(r[IndexOf(r, k)].1) else None
  }

  /** `obj[k] = v`: overwrites the value of an existing key in place, or appends a new key. */
  function Put<V>(r: Record<V>, k: string, v: V): (r': Record<V>)
    ensures k in Keys(r) ==> |r'| == |r| && r'[IndexOf(r, k)] == (k, v)
                             && forall i :: 0 <= i < |r| && i != IndexOf(r, k) ==> r'[i] == r[i]
    ensures k !in Keys(r) ==> |r'| == |r| + 1 && r'[|r|] == (k, v)
                              && forall i :: 0 <= i < |r| ==> r'[i] == r[i]
    ensures forall x :: x in Keys(r') <==> x in Keys(r) || x == k
    ensures UniqueKeys(r) ==> UniqueKeys(r')
  {
    if k in Keys(r) then
      var r' := r[IndexOf(r, k) := (k, v)];
      assert forall x :: x in Keys(r') <==> x in Keys(r) || x == k by {
        forall x ensures x in Keys(r') <==> x in Keys(r) || x == k {
          assert Keys(r')[IndexOf(r, k)] == k;
          if x in Keys(r) {
            var i :| 0 <= i < |r| && Keys(r)[i] == x;
            assert i != IndexOf(r, k) ==> Keys(r')[i] == x;
          }
          if x in Keys(r') {
            var i :| 0 <= i < |r'| && Keys(r')[i] == x;
            assert i != IndexOf(r, k) ==> Keys(r)[i] == x;
          }
        }
      }
      r'
    else
      var r' := r + [(k, v)];
      assert forall x :: x in Keys(r') <==> x in Keys(r) || x == k by {
        assert Keys(r') == Keys(r) + [k];
      }
      assert UniqueKeys(r) ==> UniqueKeys(r') by {
        forall i | 0 <= i < |r| ensures r[i].0 != k {
          assert Keys(r)[i] == r[i].0;
        }
      }
      r'
  }

  /** With unique keys, looking up an entry's key finds that entry's value. */
  lemma GetAt<V>(r: Record<V>, i: int)
    requires UniqueKeys(r)
    requires 0 <= i < |r|
    ensures Get(r, r[i].0) == Some(r[i].1)
  {
  }

  /** Reading after writing: the written key gives the new value, every other
      key what it gave before. */
  lemma GetPut<V>(r: Record<V>, k: string, v: V, x: string)
    requires UniqueKeys(r)
    ensures Get(Put(r, k, v), x) == if x == k then Some(v) else Get(r, x)
  {
  }

  /** The sum of `f` over the values. */
  function Total<V>(r: Record<V>, f: V -> nat): nat {
    if |r| == 0 then 0 else Total(r[..|r| - 1], f) + f(r[|r| - 1].1)
  }

  lemma {:induction false} TotalUpdate<V>(r: Record<V>, j: int, e: (string, V), f: V -> nat)
    requires 0 <= j < |r|
    ensures Total(r[j := e], f) + f(r[j].1) == Total(r, f) + f(e.1)
  {
    var n := |r| - 1;
    if j < n {
      TotalUpdate(r[..n], j, e, f);
      assert r[j := e][..n] == r[..n][j := e];
    } else {
      assert r[j := e][..n] == r[..n];
    }
  }

  /** Storing `v` under `k` replaces the old value's share of the total by `v`'s. */
  lemma TotalPut<V>(r: Record<V>, k: string, v: V, f: V -> nat)
    ensures Total(Put(r, k, v), f) + (if k in Keys(r) then f(r[IndexOf(r, k)].1) else 0)
            == Total(r, f) + f(v)
  {
    if k in Keys(r) {
      TotalUpdate(r, IndexOf(r, k), (k, v), f);
    } else {
      assert Put(r, k, v)[..|r|] == r;
    }
  }

  /** Totals of two records that agree entry by entry under `f` and `g`. */
  lemma {:induction false} TotalPointwise<V, W>(a: Record<V>, f: V -> nat, b: Record<W>, g: W -> nat)
    requires |a| == |b|
    requires forall i :: 0 <= i < |a| ==> f(a[i].1) == g(b[i].1)
    ensures Total(a, f) == Total(b, g)
  {
    if |a| > 0 {
      TotalPointwise(a[..|a| - 1], f, b[..|b| - 1], g);
    }
  }
}

=== FILE: search_engine.dfy ===
/** The live search for one city: geocoding with Nominatim, then an Overpass
    query around the point, in the TypeScript `searchCity` (lib/search-engine.ts)
    and the Python `search_city` (src/search_engine.py), plus the Python batch
    run over the whole registry. The two web services are not called: each
    operation takes the reply the service gives as an input, and returns the
    list of calls it makes, so the model states which calls happen in which order. */
module SearchEngine {
  import opened Wrappers
  import opened Seqs
  import opened Strings
  import opened CityFile

  const DefaultRadius := 10000
  const DefaultLimit := 50
  /** The pause between geocoding and the POI query, in milliseconds. */
  const PauseMillis := 1000
  const GeocodeFailed := "geocode_failed"
  const NoneNotSubscriptable := "'NoneType' object is not subscriptable"

  // ---------------------------------------------------------------------------
  // Remote calls and their replies
  // ---------------------------------------------------------------------------

  /** A remote call the search makes, or a deliberate pause. */
  datatype Call =
    | Geocode(city: string, country: string)
    | Pause(millis: nat)
    | Overpass(lat: real, lon: real, radius: int, limit: int)

  /** How a request raised: a non-success HTTP status, with the text the Python
      HTTP library gives that error, or any other exception and its message. */
  datatype Raised = NotOk(status: nat, text: string) | Thrown(message: string)

  /** What Nominatim answers: an exception, an empty list of places, or the
      first place with its coordinates already read as numbers. */
  datatype GeoReply = GeoRaised(raised: Raised) | GeoEmpty | GeoFound(lat: real, lon: real)

  /** The `center` of a way or relation. */
  datatype Center = Center(lat: Option<real>, lon: Option<real>)

  /** One element of Overpass's `elements`; `tags` may be absent or `null`. */
  datatype Element = Element(
    id: int, kind: string,
    lat: Option<real>, lon: Option<real>,
    center: Option<Center>,
    tags: Field<map<string, string>>)

  /** What Overpass answers: an exception, or a document whose `elements`
      member may be absent, `null` or a list. */
  datatype OverpassReply = OverpassRaised(raised: Raised) | OverpassOk(elements: Field<seq<Element>>)

  /** A point of interest as both implementations return it. */
  datatype Poi = Poi(id: int, kind: string, lat: Option<real>, lon: Option<real>, tags: Option<map<string, string>>)

  /** The search outcome for one city; absent members are `None`. */
  datatype SearchResult = SearchResult(
    country: string, city: string,
    lat: Option<real>, lon: Option<real>,
    count: Option<nat>, pois: Option<seq<Poi>>,
    error: Option<string>)

  // ---------------------------------------------------------------------------
  // Element normalisation
  // ---------------------------------------------------------------------------

  /** A coordinate JavaScript's `||` and Python's `or` keep: present and non-zero. */
  predicate Truthy(x: Option<real>) {
    x.Some? && x.value != 0.0
  }

  /** `e.center?.lat` / `(e.get('center') or {}).get('lat')`. */
  function CenterLat(e: Element): Option<real> {
    if e.center.Some? then e.center.value.lat else None
  }

  function CenterLon(e: Element): Option<real> {
    if e.center.Some? then e.center.value.lon else None
  }

  /** The element's own coordinate if truthy, else the center's (which may be missing). */
  function PickCoordinate(own: Option<real>, center: Option<real>): (r: Option<real>)
    ensures Truthy(own) ==> r == own
    ensures !Truthy(own) ==> r == center
  {
    if Truthy(own) then own else center
  }

  /** The TypeScript mapping of an element: `tags || {}`. */
  function PoiTs(e: Element): (p: Poi)
    ensures p.id == e.id && p.kind == e.kind
    ensures p.lat == PickCoordinate(e.lat, CenterLat(e)) && p.lon == PickCoordinate(e.lon, CenterLon(e))
    ensures p.tags.Some?
    ensures e.tags.Present? ==> p.tags.value == e.tags.value
    ensures !e.tags.Present? ==> p.tags.value == map[]
  {
    Poi(e.id, e.kind, PickCoordinate(e.lat, CenterLat(e)), PickCoordinate(e.lon, CenterLon(e)),
        Some(if e.tags.Present? then e.tags.value else map[]))
  }

  /** The Python mapping of an element: `e.get('tags', {})` keeps an explicit `null`. */
  function PoiPy(e: Element): (p: Poi)
    ensures p.id == e.id && p.kind == e.kind
    ensures p.lat == PickCoordinate(e.lat, CenterLat(e)) && p.lon == PickCoordinate(e.lon, CenterLon(e))
    ensures e.tags.Null? <==> p.tags.None?
    ensures e.tags.Present? ==> p.tags == Some(e.tags.value)
    ensures e.tags.Missing? ==> p.tags == Some(map[])
  {
    Poi(e.id, e.kind, PickCoordinate(e.lat, CenterLat(e)), PickCoordinate(e.lon, CenterLon(e)),
        match e.tags
        case Missing => Some(map[])
        case Null => None
        case Present(t) => Some(t))
  }

  /** The two mappings differ only on an element whose `tags` is `null`. */
  lemma PoiMappingsAgree(e: Element)
    ensures PoiTs(e) == PoiPy(e) <==> !e.tags.Null?
  {
  }

  /** A coordinate of the POI is the element's own or its center's, and the
      element's own wins whenever it is non-zero. */
  lemma PoiCoordinateSource(e: Element)
    ensures PoiTs(e).lat.Some? ==> PoiTs(e).lat == e.lat || PoiTs(e).lat == CenterLat(e)
    ensures Truthy(e.lat) ==> PoiTs(e).lat == e.lat
    ensures !Truthy(e.lat) && e.center.None? ==> PoiTs(e).lat.None?
    ensures PoiTs(e).lon.Some? ==> PoiTs(e).lon == e.lon || PoiTs(e).lon == CenterLon(e)
    ensures Truthy(e.lon) ==> PoiTs(e).lon == e.lon
    ensures !Truthy(e.lon) && e.center.None? ==> PoiTs(e).lon.None?
  {
  }

  // ---------------------------------------------------------------------------
  // Overpass query
  // ---------------------------------------------------------------------------

  /** The message the TypeScript code throws for a failed request to `service`. */
  function MessageTs(service: string, r: Raised): (m: string)
    ensures r.NotOk? ==> m == service + " API error: " + NatString(r.status)
    ensures r.Thrown? ==> m == r.message
  {
    match r
    case NotOk(status, _) => service + " API error: " + NatString(status)
    case Thrown(message) => message
  }

  /** `str(e)` for the exception the Python code lets through. */
  function MessagePy(r: Raised): (m: string)
    ensures r.NotOk? ==> m == r.text
    ensures r.Thrown? ==> m == r.message
  {
    match r
    case NotOk(_, text) => text
    case Thrown(message) => message
  }

  /** The status code can be read back from the TypeScript message. */
  lemma StatusInMessage(service: string, status: nat, text: string)
    ensures var m := MessageTs(service, NotOk(status, text));
            var k := |service + " API error: "|;
            k < |m| && AllDigits(m[k..]) && DigitsValue(m[k..]) == status
  {
    var m := MessageTs(service, NotOk(status, text));
    var k := |service + " API error: "|;
    assert m[k..] == NatString(status);
    NatStringValue(status);
  }

  /** `overpassQuery`: `(data.elements || []).slice(0, limit)` mapped element by element. */
  function OverpassTs(reply: OverpassReply, limit: int): (r: Result<seq<Poi>, string>)
    ensures reply.OverpassRaised? <==> r.Failure?
    ensures reply.OverpassRaised? ==> r.error == MessageTs("Overpass", reply.raised)
    ensures reply.OverpassOk? && !reply.elements.Present? ==> r == Success([])
    ensures reply.OverpassOk? && reply.elements.Present? ==>
      |r.value| == SliceLength(|reply.elements.value|, limit)
      && forall i :: 0 <= i < |r.value| ==> r.value[i] == PoiTs(reply.elements.value[i])
  {
    match reply
    case OverpassRaised(raised) => Failure(MessageTs("Overpass", raised))
    case OverpassOk(elements) =>
      var es := if elements.Present? then elements.value else [];
      var kept := SliceTo(es, limit);
      Success(seq(|kept|, i requires 0 <= i < |kept| => PoiTs(kept[i])))
  }

  /** `overpass_query`: `data.get('elements', [])[:limit]`; slicing `None` raises. */
  function OverpassPy(reply: OverpassReply, limit: int): (r: Result<seq<Poi>, string>)
    ensures r.Failure? <==> reply.OverpassRaised? || (reply.OverpassOk? && reply.elements.Null?)
    ensures reply.OverpassRaised? ==> r.error == MessagePy(reply.raised)
    ensures reply.OverpassOk? && reply.elements.Null? ==> r.error == NoneNotSubscriptable
    ensures reply.OverpassOk? && reply.elements.Missing? ==> r == Success([])
    ensures reply.OverpassOk? && reply.elements.Present? ==>
      |r.value| == SliceLength(|reply.elements.value|, limit)
      && forall i :: 0 <= i < |r.value| ==> r.value[i] == PoiPy(reply.elements.value[i])
  {
    match reply
    case OverpassRaised(raised) => Failure(MessagePy(raised))
    case OverpassOk(Null) => Failure(NoneNotSubscriptable)
    case OverpassOk(Missing) => Success([])
    case OverpassOk(Present(es)) =>
      var kept := SliceTo(es, limit);
      Success(seq(|kept|, i requires 0 <= i < |kept| => PoiPy(kept[i])))
  }

  /** No element list and no tag map in the reply is an explicit `null`. */
  predicate NullFree(reply: OverpassReply) {
    reply.OverpassOk? ==>
      !reply.elements.Null?
      && (reply.elements.Present? ==>
            forall i :: 0 <= i < |reply.elements.value| ==> !reply.elements.value[i].tags.Null?)
  }

  /** On a reply without explicit `null`s the two queries return the same POIs. */
  lemma OverpassAgree(reply: OverpassReply, limit: int)
    requires reply.OverpassOk? && NullFree(reply)
    ensures OverpassTs(reply, limit) == OverpassPy(reply, limit)
  {
    if reply.elements.Present? {
      var a := OverpassTs(reply, limit).value;
      var b := OverpassPy(reply, limit).value;
      forall i | 0 <= i < |a| ensures a[i] == b[i] {
        PoiMappingsAgree(reply.elements.value[i]);
      }
      assert a == b;
    }
  }

  /** A non-negative limit caps the number of POIs, and a limit above the
      number of elements keeps them all. */
  lemma OverpassLimit(reply: OverpassReply, limit: int)
    requires reply.OverpassOk?
    ensures 0 <= limit ==> |OverpassTs(reply, limit).value| <= limit
    ensures reply.elements.Present? && |reply.elements.value| <= limit ==>
      |OverpassTs(reply, limit).value| == |reply.elements.value|
  {
  }

  // ---------------------------------------------------------------------------
  // searchCity / search_city
  // ---------------------------------------------------------------------------

  /** A search outcome and the calls made to reach it. */
  datatype Run<T> = Run(outcome: T, calls: seq<Call>)

  /** The calls made once geocoding has found the city. */
  function CallsAfterGeocode(country: string, city: string, lat: real, lon: real, radius: int, limit: int): seq<Call> {
    [Geocode(city, country), Pause(PauseMillis), Overpass(lat, lon, radius, limit)]
  }

  /** `searchCity`: never raises; every failure becomes a result with an
      `error`, no coordinates, and no POIs. */
  function SearchCityTs(country: string, city: string, radius: int, limit: int,
                        geo: GeoReply, overpass: OverpassReply): (r: Run<SearchResult>)
    ensures r.outcome.country == country && r.outcome.city == city
    ensures r.outcome.pois.Some? && r.outcome.count == Some(|r.outcome.pois.value|)
    ensures r.outcome.error.None? <==> geo.GeoFound? && overpass.OverpassOk?
    ensures r.outcome.error.Some? ==> r.outcome.pois == Some([]) && r.outcome.lat.None? && r.outcome.lon.None?
    ensures geo.GeoEmpty? ==> r.outcome.error == Some(GeocodeFailed) && r.calls == [Geocode(city, country)]
    ensures geo.GeoRaised? ==> r.outcome.error == Some(MessageTs("Nominatim", geo.raised))
                               && r.calls == [Geocode(city, country)]
    ensures geo.GeoFound? ==> r.calls == CallsAfterGeocode(country, city, geo.lat, geo.lon, radius, limit)
    ensures geo.GeoFound? && overpass.OverpassRaised? ==>
      r.outcome.error == Some(MessageTs("Overpass", overpass.raised))
    ensures geo.GeoFound? && overpass.OverpassOk? ==>
      r.outcome.lat == Some(geo.lat) && r.outcome.lon == Some(geo.lon)
      && r.outcome.pois == Some(OverpassTs(overpass, limit).value)
  {
    var failed := (message: string) => SearchResult(country, city, None, None, Some(0), Some([]), Some(message));
    match geo
    case GeoRaised(raised) => Run(failed(MessageTs("Nominatim", raised)), [Geocode(city, country)])
    case GeoEmpty => Run(failed(GeocodeFailed), [Geocode(city, country)])
    case GeoFound(lat, lon) =>
      var calls := CallsAfterGeocode(country, city, lat, lon, radius, limit);
      match OverpassTs(overpass, limit)
      case Failure(message) => Run(failed(message), calls)
      case Success(pois) => Run(SearchResult(country, city, Some(lat), Some(lon), Some(|pois|), Some(pois), None), calls)
  }

  /** `search_city`: an empty geocoding answer gives a result with only the
      names and the error; every exception propagates as `Failure(str(e))`. */
  function SearchCityPy(country: string, city: string, radius: int, limit: int,
                        geo: GeoReply, overpass: OverpassReply): (r: Run<Result<SearchResult, string>>)
    ensures r.outcome.Failure? <==> geo.GeoRaised? || (geo.GeoFound? && OverpassPy(overpass, limit).Failure?)
    ensures r.outcome.Success? ==> r.outcome.value.country == country && r.outcome.value.city == city
    ensures geo.GeoEmpty? ==> r.outcome == Success(SearchResult(country, city, None, None, None, None, Some(GeocodeFailed)))
    ensures geo.GeoRaised? ==> r.outcome == Failure(MessagePy(geo.raised)) && r.calls == [Geocode(city, country)]
    ensures geo.GeoFound? && OverpassPy(overpass, limit).Failure? ==>
      r.outcome == Failure(OverpassPy(overpass, limit).error)
    ensures !geo.GeoFound? ==> r.calls == [Geocode(city, country)]
    ensures geo.GeoFound? ==> r.calls == CallsAfterGeocode(country, city, geo.lat, geo.lon, radius, limit)
    ensures r.outcome.Success? && geo.GeoFound? ==>
      var res := r.outcome.value;
      res.error.None? && res.lat == Some(geo.lat) && res.lon == Some(geo.lon)
      && res.pois == Some(OverpassPy(overpass, limit).value) && res.count == Some(|res.pois.value|)
  {
    match geo
    case GeoRaised(raised) => Run(Failure(MessagePy(raised)), [Geocode(city, country)])
    case GeoEmpty => Run(Success(SearchResult(country, city, None, None, None, None, Some(GeocodeFailed))), [Geocode(city, country)])
    case GeoFound(lat, lon) =>
      var calls := CallsAfterGeocode(country, city, lat, lon, radius, limit);
      match OverpassPy(overpass, limit)
      case Failure(message) => Run(Failure(message), calls)
      case Success(pois) => Run(Success(SearchResult(country, city, Some(lat), Some(lon), Some(|pois|), Some(pois), None)), calls)
  }

  /** Both implementations make the same calls, succeed together on replies
      without explicit `null`s, and then return the same result. Where the
      Python code raises, the TypeScript result carries the error instead. */
  lemma SearchCityAgree(country: string, city: string, radius: int, limit: int,
                        geo: GeoReply, overpass: OverpassReply)
    requires NullFree(overpass)
    ensures var ts := SearchCityTs(country, city, radius, limit, geo, overpass);
            var py := SearchCityPy(country, city, radius, limit, geo, overpass);
            && ts.calls == py.calls
            && (ts.outcome.error.None? <==> py.outcome.Success? && py.outcome.value.error.None?)
            && (ts.outcome.error.None? ==> py.outcome == Success(ts.outcome))
            && (py.outcome.Failure? ==> ts.outcome.error.Some? && ts.outcome.count == Some(0))
  {
    if geo.GeoFound? && overpass.OverpassOk? {
      OverpassAgree(overpass, limit);
    }
  }

  /** The Python code raises on an explicit `null` element list where the
      TypeScript code reports no POIs. */
  lemma NullElementsDisagree(country: string, city: string, radius: int, limit: int, lat: real, lon: real)
    ensures SearchCityPy(country, city, radius, limit, GeoFound(lat, lon), OverpassOk(Null)).outcome
            == Failure(NoneNotSubscriptable)
    ensures var ts := SearchCityTs(country, city, radius, limit, GeoFound(lat, lon), OverpassOk(Null)).outcome;
            ts.error.None? && ts.pois == Some([]) && ts.count == Some(0)
  {
  }

  // ---------------------------------------------------------------------------
  // The Python batch run over the registry
  // ---------------------------------------------------------------------------

  /** The replies the services give for one city of the batch. */
  datatype Replies = Replies(geo: GeoReply, overpass: OverpassReply)

  /** One entry of the batch: the search result, or on an exception a record
      of the city and the message. */
  function BatchEntry(c: City, radius: int, limit: int, rs: Replies): (r: SearchResult)
    ensures r.country == c.country && r.city == c.city
    ensures SearchCityPy(c.country, c.city, radius, limit, rs.geo, rs.overpass).outcome.Success? ==>
      r == SearchCityPy(c.country, c.city, radius, limit, rs.geo, rs.overpass).outcome.value
    ensures SearchCityPy(c.country, c.city, radius, limit, rs.geo, rs.overpass).outcome.Failure? ==>
      r == SearchResult(c.country, c.city, None, None, None, None,
                        Some(SearchCityPy(c.country, c.city, radius, limit, rs.geo, rs.overpass).outcome.error))
  {
    match SearchCityPy(c.country, c.city, radius, limit, rs.geo, rs.overpass).outcome
    case Success(res) => res
    case Failure(message) => SearchResult(c.country, c.city, None, None, None, None, Some(message))
  }

  /** The calls for one city of the batch, including the pause after it. */
  function BatchCalls(c: City, radius: int, limit: int, rs: Replies): seq<Call> {
    SearchCityPy(c.country, c.city, radius, limit, rs.geo, rs.overpass).calls + [Pause(PauseMillis)]
  }

  /** All the calls of a batch over `cities`, city after city. */
  function AllBatchCalls(cities: seq<City>, radius: int, limit: int, replies: seq<Replies>): seq<Call>
    requires |replies| == |cities|
  {
    if |cities| == 0 then []
    else AllBatchCalls(cities[..|cities| - 1], radius, limit, replies[..|replies| - 1])
         + BatchCalls(cities[|cities| - 1], radius, limit, replies[|replies| - 1])
  }

  /** `main` without `--country`/`--city`: every city is searched in registry
      order; an exception for one city is recorded and the batch goes on. */
  method RunBatch(cities: seq<City>, radius: int, limit: int, replies: seq<Replies>)
    returns (results: seq<SearchResult>, calls: seq<Call>)
    requires |replies| == |cities|
    ensures |results| == |cities|
    ensures forall i :: 0 <= i < |cities| ==>
      results[i].country == cities[i].country && results[i].city == cities[i].city
    ensures forall i :: 0 <= i < |cities| ==> results[i] == BatchEntry(cities[i], radius, limit, replies[i])
    ensures calls == AllBatchCalls(cities, radius, limit, replies)
  {
    results := [];
    calls := [];
    var i := 0;
    while i < |cities|
      invariant 0 <= i <= |cities|
      invariant |results| == i
      invariant forall j :: 0 <= j < i ==> results[j] == BatchEntry(cities[j], radius, limit, replies[j])
      invariant calls == AllBatchCalls(cities[..i], radius, limit, replies[..i])
    {
      var c := cities[i];
      results := results + [BatchEntry(c, radius, limit, replies[i])];
      assert cities[..i + 1][..i] == cities[..i];
      assert replies[..i + 1][..i] == replies[..i];
      calls := calls + BatchCalls(c, radius, limit, replies[i]);
      i := i + 1;
    }
    assert cities[..i] == cities;
    assert replies[..i] == replies;
  }
}

=== FILE: search_route.dfy ===
/** The search endpoint: the TypeScript `POST` and `GET` handlers of
    `/api/search` (app/api/search/route.ts) and the Flask view `api_search`
    (src/app.py). Each reads a country, a city and two optional numbers,
    rejects a request without both names, and otherwise runs the search for
    one city with the given service replies. */
module SearchRoute {
  import opened Wrappers
  import opened SearchEngine

  const NamesRequired := "country and city required"
  /** The TypeError JavaScript raises for `null.toString()`. */
  const NullToString := "Cannot read properties of null (reading 'toString')"
  /** The TypeError JavaScript raises when destructuring a `null` body. */
  const NullDestructure := "Cannot destructure property 'country' of 'body' as it is null."

  /** A decoded JSON request body: unreadable text (with the parser's message),
      the literal `null`, or an object whose members may be absent or `null`. */
  datatype JsonBody =
    | Unreadable(message: string)
    | NullBody
    | Object(country: Field<string>, city: Field<string>, radius: Field<int>, limit: Field<int>)

  /** A numeric query parameter: absent, present but empty, or a numeral of `n`. */
  datatype NumParam = Absent | Blank | Numeral(n: int)

  /** A response body: a search result, an error object, or (Flask only) the
      framework's own page for a request it could not decode. */
  datatype SearchBody = Found(result: SearchResult) | ErrorBody(error: string) | BadRequestPage

  /** A response and the remote calls made to produce it. */
  datatype Handled = Handled(response: Http<SearchBody>, calls: seq<Call>)

  /** A JSON string member that `!x` / `not x` accepts: present, not `null`, non-empty. */
  predicate Filled(f: Field<string>) {
    f.Present? && |f.value| > 0
  }

  /** A query-string name that passes the check: present and non-empty. */
  predicate GivenName(p: Option<string>) {
    p.Some? && |p.value| > 0
  }

  // ---------------------------------------------------------------------------
  // Numeric parameters
  // ---------------------------------------------------------------------------

  /** `const { radius = 10000 } = body` then `parseInt(radius.toString())`: the
      default applies only to an absent member; `null` throws. */
  function TsBodyNumber(f: Field<int>, default: int): (r: Result<int, string>)
    ensures f.Missing? ==> r == Success(default)
    ensures f.Null? <==> r.Failure?
    ensures f.Null? ==> r.error == NullToString
    ensures f.Present? ==> r == Success(f.value)
  {
    match f
    case Missing => Success(default)
    case Null => Failure(NullToString)
    case Present(n) => Success(n)
  }

  /** `int(body.get('radius') or 10000)`: absent, `null` and `0` all give the default. */
  function PyBodyNumber(f: Field<int>, default: int): (r: int)
    ensures f.Present? && f.value != 0 ==> r == f.value
    ensures !(f.Present? && f.value != 0) ==> r == default
  {
    if f.Present? && f.value != 0 then f.value else default
  }

  /** `parseInt(get('radius') || '10000')` and `int(args.get('radius') or 10000)`:
      absent and empty give the default; the numeral "0" is a non-empty string
      and stays 0. */
  function ParamNumber(p: NumParam, default: int): (r: int)
    ensures p.Numeral? ==> r == p.n
    ensures !p.Numeral? ==> r == default
  {
    if p.Numeral? then p.n else default
  }

  /** A zero radius: kept by every handler except the Flask view's JSON branch,
      which turns it into the default. */
  lemma ZeroRadius()
    ensures TsBodyNumber(Present(0), DefaultRadius) == Success(0)
    ensures PyBodyNumber(Present(0), DefaultRadius) == DefaultRadius
    ensures ParamNumber(Numeral(0), DefaultRadius) == 0
  {
  }

  // ---------------------------------------------------------------------------
  // TypeScript handlers
  // ---------------------------------------------------------------------------

  /** The search for validated names: `searchCity` never throws, so it answers
      200 with the search result as the body. */
  function Searched(country: string, city: string, radius: int, limit: int, rs: Replies): (h: Handled)
    ensures h.response.status == 200 && h.response.body.Found?
    ensures h.response.body.result.country == country && h.response.body.result.city == city
    ensures h.response.body.result == SearchCityTs(country, city, radius, limit, rs.geo, rs.overpass).outcome
    ensures h.calls == SearchCityTs(country, city, radius, limit, rs.geo, rs.overpass).calls
  {
    var run := SearchCityTs(country, city, radius, limit, rs.geo, rs.overpass);
    Handled(Http(200, Found(run.outcome)), run.calls)
  }

  /** `POST /api/search`. */
  function PostTs(body: JsonBody, rs: Replies): (h: Handled)
    ensures h.response.status in {200, 400, 500}
    ensures body.Unreadable? ==> h == Handled(Http(500, ErrorBody(body.message)), [])
    ensures body.NullBody? ==> h == Handled(Http(500, ErrorBody(NullDestructure)), [])
    ensures body.Object? ==>
      (h.response.status == 400 <==> !Filled(body.country) || !Filled(body.city))
    ensures h.response.status == 400 ==> h.response.body == ErrorBody(NamesRequired)
    ensures body.Object? && Filled(body.country) && Filled(body.city) ==>
      (h.response.status == 500 <==> body.radius.Null? || body.limit.Null?)
    ensures body.Object? && Filled(body.country) && Filled(body.city) && h.response.status == 500 ==>
      h.response.body == ErrorBody(NullToString)
    ensures h.response.status != 200 ==> h.calls == []
    ensures h.response.status == 200 ==>
      body.Object? && Filled(body.country) && Filled(body.city) && !body.radius.Null? && !body.limit.Null?
      && h == Searched(body.country.value, body.city.value,
                       TsBodyNumber(body.radius, DefaultRadius).value,
                       TsBodyNumber(body.limit, DefaultLimit).value, rs)
  {
    match body
    case Unreadable(message) => Handled(Http(500, ErrorBody(message)), [])
    case NullBody => Handled(Http(500, ErrorBody(NullDestructure)), [])
    case Object(country, city, radius, limit) =>
      if !Filled(country) || !Filled(city) then Handled(Http(400, ErrorBody(NamesRequired)), [])
      else
        match TsBodyNumber(radius, DefaultRadius)
        case Failure(e) => Handled(Http(500, ErrorBody(e)), [])
        case Success(r) =>
          match TsBodyNumber(limit, DefaultLimit)
          case Failure(e) => Handled(Http(500, ErrorBody(e)), [])
          case Success(l) => Searched(country.value, city.value, r, l, rs)
  }

  /** `GET /api/search`. */
  function GetTs(country: Option<string>, city: Option<string>, radius: NumParam, limit: NumParam,
                 rs: Replies): (h: Handled)
    ensures h.response.status == 400 <==> !GivenName(country) || !GivenName(city)
    ensures h.response.status == 400 ==> h.response.body == ErrorBody(NamesRequired) && h.calls == []
    ensures h.response.status != 400 ==>
      h == Searched(country.value, city.value, ParamNumber(radius, DefaultRadius), ParamNumber(limit, DefaultLimit), rs)
  {
    if !GivenName(country) || !GivenName(city) then Handled(Http(400, ErrorBody(NamesRequired)), [])
    else Searched(country.value, city.value, ParamNumber(radius, DefaultRadius), ParamNumber(limit, DefaultLimit), rs)
  }

  // ---------------------------------------------------------------------------
  // Flask handler
  // ---------------------------------------------------------------------------

  /** The shared tail of `api_search`: validation, then `search_city`, whose
      exception becomes a 500 carrying its message. */
  function SearchedPy(country: Option<string>, city: Option<string>, radius: int, limit: int, rs: Replies): (h: Handled)
    ensures h.response.status == 400 <==> !GivenName(country) || !GivenName(city)
    ensures h.response.status == 400 ==> h.response.body == ErrorBody(NamesRequired) && h.calls == []
    ensures h.response.status != 400 ==>
      var run := SearchCityPy(country.value, city.value, radius, limit, rs.geo, rs.overpass);
      && h.calls == run.calls
      && (run.outcome.Failure? ==> h.response == Http(500, ErrorBody(run.outcome.error)))
      && (run.outcome.Success? ==> h.response == Http(200, Found(run.outcome.value)))
  {
    if !GivenName(country) || !GivenName(city) then Handled(Http(400, ErrorBody(NamesRequired)), [])
    else
      var run := SearchCityPy(country.value, city.value, radius, limit, rs.geo, rs.overpass);
      match run.outcome
      case Failure(e) => Handled(Http(500, ErrorBody(e)), run.calls)
      case Success(res) => Handled(Http(200, Found(res)), run.calls)
  }

  /** A JSON string member as `body.get('country')` returns it. */
  function FieldValue(f: Field<string>): (v: Option<string>)
    ensures v.Some? <==> f.Present?
    ensures f.Present? ==> v.value == f.value
  {
    if f.Present? then Some(f.value) else None
  }

  /** `api_search` on `POST`: `request.get_json() or {}`; an undecodable body is
      refused by the framework before the view's own checks. */
  function PostPy(body: JsonBody, rs: Replies): (h: Handled)
    ensures body.Unreadable? ==> h == Handled(Http(400, BadRequestPage), [])
    ensures body.NullBody? ==> h == Handled(Http(400, ErrorBody(NamesRequired)), [])
    ensures body.Object? ==> h == SearchedPy(FieldValue(body.country), FieldValue(body.city),
                                             PyBodyNumber(body.radius, DefaultRadius),
                                             PyBodyNumber(body.limit, DefaultLimit), rs)
    ensures h.response.status == 400 ==> h.calls == []
  {
    match body
    case Unreadable(_) => Handled(Http(400, BadRequestPage), [])
    case NullBody => SearchedPy(None, None, DefaultRadius, DefaultLimit, rs)
    case Object(country, city, radius, limit) =>
      SearchedPy(FieldValue(country), FieldValue(city),
                 PyBodyNumber(radius, DefaultRadius), PyBodyNumber(limit, DefaultLimit), rs)
  }

  /** `api_search` on `GET`. */
  function GetPy(country: Option<string>, city: Option<string>, radius: NumParam, limit: NumParam,
                 rs: Replies): (h: Handled)
    ensures h == SearchedPy(country, city, ParamNumber(radius, DefaultRadius), ParamNumber(limit, DefaultLimit), rs)
    ensures h.response.status == 400 <==> !GivenName(country) || !GivenName(city)
  {
    SearchedPy(country, city, ParamNumber(radius, DefaultRadius), ParamNumber(limit, DefaultLimit), rs)
  }

  // ---------------------------------------------------------------------------
  // How the handlers relate
  // ---------------------------------------------------------------------------

  /** For a JSON object body the two `POST` handlers validate alike: a request
      is refused with 400, before any remote call, exactly when a name is
      missing, `null` or empty. (`null` and undecodable bodies are answered
      differently, as PostTs and PostPy state.) */
  lemma ValidationAgrees(country: Field<string>, city: Field<string>, radius: Field<int>, limit: Field<int>, rs: Replies)
    ensures var ts := PostTs(Object(country, city, radius, limit), rs);
            var py := PostPy(Object(country, city, radius, limit), rs);
            (ts.response.status == 400 <==> py.response.status == 400)
            && (ts.response.status == 400 ==> ts.calls == [] && py.calls == [])
  {
  }

  /** On a body without `null` members or zero numbers, and replies without
      explicit `null`s, the two `POST` handlers make the same calls and, when the
      search finds the city and its POIs, return the same result. */
  lemma PostHandlersAgree(country: string, city: string, radius: Field<int>, limit: Field<int>, rs: Replies)
    requires |country| > 0 && |city| > 0
    requires !radius.Null? && !limit.Null?
    requires radius != Present(0) && limit != Present(0)
    requires NullFree(rs.overpass)
    ensures var body := Object(Present(country), Present(city), radius, limit);
            var ts := PostTs(body, rs);
            var py := PostPy(body, rs);
            && ts.calls == py.calls
            && (ts.response.body.Found? && ts.response.body.result.error.None? ==> py.response == ts.response)
  {
    var r := TsBodyNumber(radius, DefaultRadius).value;
    var l := TsBodyNumber(limit, DefaultLimit).value;
    assert PyBodyNumber(radius, DefaultRadius) == r;
    assert PyBodyNumber(limit, DefaultLimit) == l;
    SearchCityAgree(country, city, r, l, rs.geo, rs.overpass);
  }

  /** The two `GET` handlers read the parameters identically and make the same calls. */
  lemma GetHandlersAgree(country: Option<string>, city: Option<string>, radius: NumParam, limit: NumParam, rs: Replies)
    ensures GetTs(country, city, radius, limit, rs).calls == GetPy(country, city, radius, limit, rs).calls
    ensures GetTs(country, city, radius, limit, rs).response.status == 400
            <==> GetPy(country, city, radius, limit, rs).response.status == 400
  {
  }

  /** A `null` radius in a valid TypeScript body is a 500 without any remote call,
      while the Flask view searches with the default radius. */
  lemma NullRadiusDiffers(country: string, city: string, limit: Field<int>, rs: Replies)
    requires |country| > 0 && |city| > 0
    ensures PostTs(Object(Present(country), Present(city), Null, limit), rs)
            == Handled(Http(500, ErrorBody(NullToString)), [])
    ensures PostPy(Object(Present(country), Present(city), Null, limit), rs).calls
            == SearchCityPy(country, city, DefaultRadius, PyBodyNumber(limit, DefaultLimit), rs.geo, rs.overpass).calls
  {
  }
}

=== FILE: seqs.dfy ===
/** Sequence operations the JavaScript and Python code uses on arrays and lists:
    order-preserving filtering (`Array.prototype.filter`) and prefix slicing
    (`slice(0, n)` / `[:n]`). */
module Seqs {
  import opened Wrappers

  /** `a` can be obtained from `b` by deleting elements, keeping the order of the rest. */
  ghost predicate IsSubseq<T>(a: seq<T>, b: seq<T>)
    decreases |b|
  {
    if |a| == 0 then true
    else if |b| == 0 then false
    else (a[|a| - 1] == b[|b| - 1] && IsSubseq(a[..|a| - 1], b[..|b| - 1]))
         || IsSubseq(a, b[..|b| - 1])
  }

  /** The elements of `s` that satisfy `p`, in their original order, with multiplicity. */
  function Filter<T(!new)>(s: seq<T>, p: T -> bool): (r: seq<T>)
    ensures |r| <= |s|
    ensures forall x :: x in r <==> x in s && p(x)
    ensures IsSubseq(r, s)
  {
    if |s| == 0 then []
    else
      var init := Filter(s[..|s| - 1], p);
      var last := s[|s| - 1];
      assert s == s[..|s| - 1] + [last];
      if p(last) then
        assert (init + [last])[..|init + [last]| - 1] == init;
        init + [last]
      else init
  }

  /** Filtering distributes over concatenation. */
  lemma {:induction false} FilterAppend<T(!new)>(a: seq<T>, b: seq<T>, p: T -> bool)
    ensures Filter(a + b, p) == Filter(a, p) + Filter(b, p)
  {
    if |b| > 0 {
      var b' := b[..|b| - 1];
      var last := b[|b| - 1];
      var tail := if p(last) then [last] else [];
      FilterAppend(a, b', p);
      assert (a + b)[..|a + b| - 1] == a + b';
      assert (a + b)[|a + b| - 1] == last;
      assert Filter(a + b, p) == Filter(a + b', p) + tail;
      assert Filter(b, p) == Filter(b', p) + tail;
      assert Filter(a, p) + Filter(b', p) + tail == Filter(a, p) + (Filter(b', p) + tail);
    } else {
      assert a + b == a;
    }
  }

  /** Filtering keeps every element satisfying `p` as often as it occurs, and no other. */
  lemma {:induction false} FilterMultiplicity<T(!new)>(s: seq<T>, p: T -> bool)
    ensures forall x :: multiset(Filter(s, p))[x] == if p(x) then multiset(s)[x] else 0
  {
    if |s| > 0 {
      var init := s[..|s| - 1];
      FilterMultiplicity(init, p);
      assert s == init + [s[|s| - 1]];
    }
  }

  /** Filtering twice is filtering once by the conjunction. */
  lemma {:induction false} FilterFilter<T(!new)>(s: seq<T>, p: T -> bool, q: T -> bool, pq: T -> bool)
    requires forall x :: pq(x) == (p(x) && q(x))
    ensures Filter(Filter(s, p), q) == Filter(s, pq)
  {
    if |s| > 0 {
      var init := s[..|s| - 1];
      var last := s[|s| - 1];
      FilterFilter(init, p, q, pq);
      var fp := Filter(s, p);
      if p(last) {
        assert fp == Filter(init, p) + [last];
        assert fp[..|fp| - 1] == Filter(init, p);
      } else {
        assert fp == Filter(init, p);
      }
    }
  }

  /** A predicate that holds everywhere keeps the whole sequence. */
  lemma {:induction false} FilterAll<T(!new)>(s: seq<T>, p: T -> bool)
    requires forall i :: 0 <= i < |s| ==> p(s[i])
    ensures Filter(s, p) == s
  {
    if |s| > 0 {
      FilterAll(s[..|s| - 1], p);
      assert s == s[..|s| - 1] + [s[|s| - 1]];
    }
  }

  /** The values `f` yields on the elements of `s`, in order, skipping the
      elements it yields nothing for: a loop that pushes a result when there is one. */
  function FilterMap<A, B>(s: seq<A>, f: A -> Option<B>): (r: seq<B>)
    ensures |r| <= |s|
  {
    if |s| == 0 then []
    else
      var init := FilterMap(s[..|s| - 1], f);
      match f(s[|s| - 1])
      case Some(b) => init + [b]
      case None => init
  }

  /** Mapping two blocks is mapping each and concatenating. */
  lemma {:induction false} FilterMapAppend<A, B>(a: seq<A>, b: seq<A>, f: A -> Option<B>)
    ensures FilterMap(a + b, f) == FilterMap(a, f) + FilterMap(b, f)
  {
    if |b| > 0 {
      var b' := b[..|b| - 1];
      FilterMapAppend(a, b', f);
      assert (a + b)[..|a + b| - 1] == a + b';
      assert (a + b)[|a + b| - 1] == b[|b| - 1];
    } else {
      assert a + b == a;
    }
  }

  /** Every value comes from some element. */
  lemma {:induction false} FilterMapSource<A, B>(s: seq<A>, f: A -> Option<B>, b: B)
    requires b in FilterMap(s, f)
    ensures exists i :: 0 <= i < |s| && f(s[i]) == Some(b)
  {
    var n := |s| - 1;
    if b in FilterMap(s[..n], f) {
      FilterMapSource(s[..n], f, b);
      var i :| 0 <= i < n && f(s[..n][i]) == Some(b);
      assert s[i] == s[..n][i];
    } else {
      assert f(s[n]) == Some(b);
    }
  }

  /** When every element yields a value, the result is exactly those values. */
  lemma {:induction false} FilterMapAll<A, B>(s: seq<A>, f: A -> Option<B>, t: seq<B>)
    requires |s| == |t|
    requires forall i :: 0 <= i < |s| ==> f(s[i]) == Some(t[i])
    ensures FilterMap(s, f) == t
  {
    if |s| > 0 {
      var n := |s| - 1;
      FilterMapAll(s[..n], f, t[..n]);
      assert t == t[..n] + [t[n]];
    }
  }

  /** No element occurs twice. */
  predicate Distinct<T(==)>(s: seq<T>) {
    forall i, j :: 0 <= i < j < |s| ==> s[i] != s[j]
  }

  /** Distinctness is a property of the multiset alone: every count is at most one. */
  lemma {:induction false} DistinctMultiset<T>(s: seq<T>)
    ensures Distinct(s) <==> forall x :: multiset(s)[x] <= 1
  {
    if Distinct(s) {
      DistinctCounts(s);
    }
    if !Distinct(s) {
      var i, j :| 0 <= i < j < |s| && s[i] == s[j];
      assert s == s[..j] + s[j..];
      assert s[i] in s[..j];
      assert s[j] == s[j..][0];
      assert multiset(s)[s[i]] == multiset(s[..j])[s[i]] + multiset(s[j..])[s[i]];
    }
  }

  lemma {:induction false} DistinctCounts<T>(s: seq<T>)
    requires Distinct(s)
    ensures forall x :: multiset(s)[x] <= 1
  {
    if |s| > 0 {
      var init := s[..|s| - 1];
      DistinctCounts(init);
      assert s == init + [s[|s| - 1]];
      assert s[|s| - 1] !in init;
    }
  }

  /** The length `slice(0, end)` keeps: a non-negative `end` caps the length,
      a negative one counts back from the end (JavaScript and Python agree). */
  function SliceLength(n: nat, end: int): (k: nat)
    ensures k <= n
    ensures 0 <= end ==> k == if end < n then end else n
    ensures end < 0 ==> k + (if -end < n then -end else n) == n
  {
    if 0 <= end then (if end < n then end else n)
    else if n + end < 0 then 0 else n + end
  }

  /** `s.slice(0, end)` in JavaScript, `s[:end]` in Python. */
  function SliceTo<T>(s: seq<T>, end: int): (r: seq<T>)
    ensures |r| == SliceLength(|s|, end)
    ensures forall i :: 0 <= i < |r| ==> r[i] == s[i]
  {
    s[..SliceLength(|s|, end)]
  }
}

=== FILE: shops_data.dfy ===
/** The shop catalog of `lib/shops-data.ts`: the memoised loader and the
    filters, search and per-country / per-city counts that the HTTP routes call.
    The catalog is the sequence of rows the CSV parser produced; every query
    takes it as a parameter (it is what `loadShops()` returns). */
module ShopsData {
  import opened Wrappers
  import opened Seqs
  import opened Strings
  import opened Records

  /** One row of `shops_by_country.csv`. Coordinates are kept as opaque reals;
      the numeric casts of the CSV reader are not modelled. */
  datatype Shop = Shop(
    country: string,
    cityName: string,
    name: string,
    address: string,
    rating: string,
    reviewsCount: int,
    phone: string,
    website: string,
    businessType: string,
    hours: string,
    latitude: real,
    longitude: real,
    placeId: string,
    scrapedAt: string)

  // ---------------------------------------------------------------------------
  // loadShops: the process-wide cache
  // ---------------------------------------------------------------------------

  /** The module variable `cachedShops`: empty until a load succeeds. */
  datatype ShopCache = Unloaded | Cached(shops: seq<Shop>)

  /** What one call of `loadShops` returns, the cache it leaves behind, and
      whether it read the file. A failed read is the exception the call throws. */
  datatype Load = Load(shops: Result<seq<Shop>, string>, cache: ShopCache, fileRead: bool)

  /** `loadShops()`, where `file` is what reading and parsing the CSV file would give now. */
  function LoadShops(cache: ShopCache, file: Result<seq<Shop>, string>): (l: Load)
    ensures l.fileRead <==> cache.Unloaded?
    ensures l.shops.Success? ==> l.cache == Cached(l.shops.value)
    ensures cache.Cached? ==> l.shops == Success(cache.shops) && l.cache == cache
    ensures cache.Unloaded? ==> l.shops == file
    ensures l.shops.Failure? ==> l.cache == Unloaded
  {
    match cache
    case Cached(shops) => Load(Success(shops), cache, false)
    case Unloaded =>
      match file
      case Success(rows) => Load(file, Cached(rows), true)
      case Failure(_) => Load(file, Unloaded, true)
  }

  /** Successive calls of `loadShops`, the i-th seeing the file in state `files[i]`. */
  function LoadRepeatedly(cache: ShopCache, files: seq<Result<seq<Shop>, string>>): (ls: seq<Load>)
    ensures |ls| == |files|
    ensures forall k :: 0 <= k < |ls| && ls[k].shops.Success? ==> ls[k].cache == Cached(ls[k].shops.value)
    decreases |files|
  {
    if |files| == 0 then []
    else
      var l := LoadShops(cache, files[0]);
      [l] + LoadRepeatedly(l.cache, files[1..])
  }

  lemma {:induction false} LoadRepeatedlyFrom(cache: ShopCache, files: seq<Result<seq<Shop>, string>>, i: nat)
    requires i < |files|
    decreases i
    ensures LoadRepeatedly(cache, files)[i + 1..]
            == LoadRepeatedly(LoadRepeatedly(cache, files)[i].cache, files[i + 1..])
  {
    var l := LoadShops(cache, files[0]);
    if i > 0 {
      LoadRepeatedlyFrom(l.cache, files[1..], i - 1);
      assert files[1..][i..] == files[i + 1..];
    }
  }

  lemma {:induction false} CachedStaysCached(shops: seq<Shop>, files: seq<Result<seq<Shop>, string>>)
    decreases |files|
    ensures forall k :: 0 <= k < |files| ==>
      LoadRepeatedly(Cached(shops), files)[k] == Load(Success(shops), Cached(shops), false)
  {
    if |files| > 0 {
      CachedStaysCached(shops, files[1..]);
    }
  }

  /** Once a call has loaded the catalog, every later call returns that same
      catalog and none reads the file again, whatever the file now holds. */
  lemma LoadIsMemoized(cache: ShopCache, files: seq<Result<seq<Shop>, string>>, i: nat, j: nat)
    requires i < j < |files|
    requires LoadRepeatedly(cache, files)[i].shops.Success?
    ensures LoadRepeatedly(cache, files)[j].shops == LoadRepeatedly(cache, files)[i].shops
    ensures !LoadRepeatedly(cache, files)[j].fileRead
  {
    var ls := LoadRepeatedly(cache, files);
    var shops := ls[i].shops.value;
    LoadRepeatedlyFrom(cache, files, i);
    assert ls[i].cache == Cached(shops);
    CachedStaysCached(shops, files[i + 1..]);
    assert ls[j] == ls[i + 1..][j - i - 1];
  }

  // ---------------------------------------------------------------------------
  // Filters and search
  // ---------------------------------------------------------------------------

  function CountryIs(country: string): Shop -> bool {
    (s: Shop) => s.country == country
  }

  function CityNameIs(city: string): Shop -> bool {
    (s: Shop) => s.cityName == city
  }

  function LocatedIn(country: string, city: string): Shop -> bool {
    (s: Shop) => s.country == country && s.cityName == city
  }

  /** `getShopsByCountry`: the shops of exactly that country, in catalog order. */
  function ShopsByCountry(shops: seq<Shop>, country: string): (r: seq<Shop>)
    ensures forall s :: s in r <==> s in shops && s.country == country
    ensures IsSubseq(r, shops)
  {
    Filter(shops, CountryIs(country))
  }

  /** Duplicated rows are neither merged nor dropped: each shop of the country
      occurs in the result as often as in the catalog. */
  lemma ShopsByCountryMultiplicity(shops: seq<Shop>, country: string)
    ensures forall s :: multiset(ShopsByCountry(shops, country))[s]
                        == if s.country == country then multiset(shops)[s] else 0
  {
    FilterMultiplicity(shops, CountryIs(country));
  }

  /** `getShopsByCity`: the shops matching both the country and the city name, in catalog order. */
  function ShopsByCity(shops: seq<Shop>, country: string, city: string): (r: seq<Shop>)
    ensures forall s :: s in r <==> s in shops && s.country == country && s.cityName == city
    ensures IsSubseq(r, shops)
    ensures forall s :: multiset(r)[s]
                        == if s.country == country && s.cityName == city then multiset(shops)[s] else 0
  {
    FilterMultiplicity(shops, LocatedIn(country, city));
    Filter(shops, LocatedIn(country, city))
  }

  /** The city filter is the country filter narrowed by the city name, so its
      result is an order-preserving selection from the country's shops. */
  lemma ShopsByCityWithinCountry(shops: seq<Shop>, country: string, city: string)
    ensures ShopsByCity(shops, country, city) == Filter(ShopsByCountry(shops, country), CityNameIs(city))
    ensures IsSubseq(ShopsByCity(shops, country, city), ShopsByCountry(shops, country))
  {
    FilterFilter(shops, CountryIs(country), CityNameIs(city), LocatedIn(country, city));
  }

  /** The fields `searchShops` looks in. */
  function SearchFields(s: Shop): seq<string> {
    [s.name, s.cityName, s.country, s.businessType, s.address]
  }

  /** The test `searchShops` applies to one shop, given the lower-cased query. */
  function MatchesQuery(lowerQuery: string): Shop -> bool {
    (s: Shop) =>
      Contains(Lower(s.name), lowerQuery)
      || Contains(Lower(s.cityName), lowerQuery)
      || Contains(Lower(s.country), lowerQuery)
      || Contains(Lower(s.businessType), lowerQuery)
      || Contains(Lower(s.address), lowerQuery)
  }

  /** `searchShops`: a shop is kept exactly when the lower-cased query occurs in
      the lower-cased form of at least one of its five searched fields. */
  function SearchShops(shops: seq<Shop>, query: string): (r: seq<Shop>)
    ensures forall s :: s in r <==>
      s in shops && exists f :: f in SearchFields(s) && IsInfix(Lower(query), Lower(f))
    ensures IsSubseq(r, shops)
    ensures forall s :: multiset(r)[s] ==
                        (if exists f :: f in SearchFields(s) && IsInfix(Lower(query), Lower(f))
                         then multiset(shops)[s] else 0)
  {
    var lowerQuery := Lower(query);
    MatchesQueryMeaning(lowerQuery);
    FilterMultiplicity(shops, MatchesQuery(lowerQuery));
    Filter(shops, MatchesQuery(lowerQuery))
  }

  /** The five-way disjunction of the test is an occurrence in some searched field. */
  lemma MatchesQueryMeaning(lowerQuery: string)
    ensures forall s :: MatchesQuery(lowerQuery)(s) <==>
      exists f :: f in SearchFields(s) && IsInfix(lowerQuery, Lower(f))
  {
    forall s ensures MatchesQuery(lowerQuery)(s) <==>
      exists f :: f in SearchFields(s) && IsInfix(lowerQuery, Lower(f)) {
      var fs := SearchFields(s);
      assert forall f :: f in fs <==> f == fs[0] || f == fs[1] || f == fs[2] || f == fs[3] || f == fs[4];
    }
  }

  /** The empty query is contained in every field, so it returns the whole catalog. */
  lemma SearchEmptyQuery(shops: seq<Shop>)
    ensures SearchShops(shops, "") == shops
  {
    assert Lower("") == "";
    forall i | 0 <= i < |shops| ensures MatchesQuery("")(shops[i]) {
      assert Contains(Lower(shops[i].name), "");
    }
    FilterAll(shops, MatchesQuery(""));
  }

  /** The search is insensitive to the case of the query's ASCII letters. */
  lemma SearchIgnoresQueryCase(shops: seq<Shop>, query: string)
    ensures SearchShops(shops, query) == SearchShops(shops, Lower(query))
  {
    LowerIdempotent(query);
  }

  // ---------------------------------------------------------------------------
  // Aggregations
  // ---------------------------------------------------------------------------

  /** The distinct countries of the catalog. */
  function CountriesIn(shops: seq<Shop>): (cs: set<string>)
    ensures forall c :: c in cs <==> exists s :: s in shops && s.country == c
  {
    if |shops| == 0 then {}
    else
      assert shops == shops[..|shops| - 1] + [shops[|shops| - 1]];
      CountriesIn(shops[..|shops| - 1]) + {shops[|shops| - 1].country}
  }

  /** The distinct city names among the shops of `country`. */
  function CitiesIn(shops: seq<Shop>, country: string): (cs: set<string>)
    ensures forall x :: x in cs <==> exists s :: s in shops && s.country == country && s.cityName == x
  {
    if |shops| == 0 then {}
    else
      var last := shops[|shops| - 1];
      assert shops == shops[..|shops| - 1] + [last];
      CitiesIn(shops[..|shops| - 1], country) + (if last.country == country then {last.cityName} else {})
  }

  /** How the per-country facts change when one shop is appended. */
  lemma ExtendCountry(init: seq<Shop>, last: Shop, c: string)
    ensures CitiesIn(init + [last], c) == CitiesIn(init, c) + (if last.country == c then {last.cityName} else {})
    ensures |ShopsByCountry(init + [last], c)| == |ShopsByCountry(init, c)| + (if last.country == c then 1 else 0)
  {
    assert (init + [last])[..|init + [last]| - 1] == init;
  }

  lemma ExtendCity(init: seq<Shop>, last: Shop, x: string)
    ensures |Filter(init + [last], CityNameIs(x))| == |Filter(init, CityNameIs(x))| + (if last.cityName == x then 1 else 0)
  {
    assert (init + [last])[..|init + [last]| - 1] == init;
  }

  /** A country with no shops has no cities and an empty filter result. */
  lemma Absent(shops: seq<Shop>, c: string)
    requires c !in CountriesIn(shops)
    ensures CitiesIn(shops, c) == {}
    ensures ShopsByCountry(shops, c) == []
  {
  }

  /** A country present in the catalog has at least one city, and no country
      has more distinct cities than shops. */
  lemma {:induction false} CitiesBetweenOneAndShops(shops: seq<Shop>, c: string)
    ensures c in CountriesIn(shops) ==> 1 <= |CitiesIn(shops, c)|
    ensures |CitiesIn(shops, c)| <= |ShopsByCountry(shops, c)|
  {
    if c in CountriesIn(shops) {
      var s :| s in shops && s.country == c;
      assert s.cityName in CitiesIn(shops, c);
    }
    if |shops| > 0 {
      var init := shops[..|shops| - 1];
      var last := shops[|shops| - 1];
      assert shops == init + [last];
      CitiesBetweenOneAndShops(init, c);
      ExtendCountry(init, last, c);
    }
  }

  /** The accumulator `getCountriesWithShopCounts` keeps per country: a set of city names and a counter. */
  datatype CountryTally = CountryTally(cities: set<string>, shops: nat)

  function TallyShops(t: CountryTally): nat {
    t.shops
  }

  /** `acc` holds, for each country of `shops`, exactly its cities and its number of shops. */
  ghost predicate TalliesCountries(acc: Record<CountryTally>, shops: seq<Shop>) {
    && UniqueKeys(acc)
    && (forall c :: c in Keys(acc) <==> c in CountriesIn(shops))
    && TalliedEntries(acc, shops)
    && Total(acc, TallyShops) == |shops|
  }

  /** Each entry of `acc` holds its country's cities and number of shops. */
  ghost predicate TalliedEntries(acc: Record<CountryTally>, shops: seq<Shop>) {
    forall i :: 0 <= i < |acc| ==>
      acc[i].1 == CountryTally(CitiesIn(shops, acc[i].0), |ShopsByCountry(shops, acc[i].0)|)
  }

  /** One step of the `forEach`: create the country's entry if needed, add the city, count the shop. */
  function AddShop(acc: Record<CountryTally>, shop: Shop): Record<CountryTally> {
    var cur := Get(acc, shop.country).GetOr(CountryTally({}, 0));
    Put(acc, shop.country, CountryTally(cur.cities + {shop.cityName}, cur.shops + 1))
  }

  lemma TallyStep(acc: Record<CountryTally>, init: seq<Shop>, last: Shop)
    requires TalliesCountries(acc, init)
    ensures TalliesCountries(AddShop(acc, last), init + [last])
  {
    TallyKeys(acc, init, last);
    TallyTotal(acc, last);
    var r := AddShop(acc, last);
    forall i | 0 <= i < |r|
      ensures r[i].1 == CountryTally(CitiesIn(init + [last], r[i].0), |ShopsByCountry(init + [last], r[i].0)|)
    {
      TallyEntry(acc, init, last, i);
    }
  }

  lemma TallyKeys(acc: Record<CountryTally>, init: seq<Shop>, last: Shop)
    requires TalliesCountries(acc, init)
    ensures UniqueKeys(AddShop(acc, last))
    ensures forall c :: c in Keys(AddShop(acc, last)) <==> c in CountriesIn(init + [last])
  {
    var shops := init + [last];
    assert CountriesIn(shops) == CountriesIn(init) + {last.country} by {
      assert shops[..|shops| - 1] == init;
    }
  }

  /** Adding a shop adds one to the total shop count. */
  lemma TallyTotal(acc: Record<CountryTally>, last: Shop)
    ensures Total(AddShop(acc, last), TallyShops) == Total(acc, TallyShops) + 1
  {
    var k := last.country;
    var cur := Get(acc, k).GetOr(CountryTally({}, 0));
    var next := CountryTally(cur.cities + {last.cityName}, cur.shops + 1);
    TotalPut(acc, k, next, TallyShops);
  }

  lemma TallyEntry(acc: Record<CountryTally>, init: seq<Shop>, last: Shop, i: nat)
    requires UniqueKeys(acc) && TalliedEntries(acc, init)
    requires forall c :: c in Keys(acc) <==> c in CountriesIn(init)
    requires i < |AddShop(acc, last)|
    ensures var r := AddShop(acc, last);
            r[i].1 == CountryTally(CitiesIn(init + [last], r[i].0), |ShopsByCountry(init + [last], r[i].0)|)
  {
    var k := last.country;
    var r := AddShop(acc, last);
    if k in Keys(acc) && i == IndexOf(acc, k) {
      ExtendCountry(init, last, k);
    } else if k !in Keys(acc) && i == |acc| {
      Absent(init, k);
      ExtendCountry(init, last, k);
    } else {
      assert r[i] == acc[i];
      ExtendCountry(init, last, acc[i].0);
    }
  }

  /** The `forEach` pass of `getCountriesWithShopCounts`, one shop after the other. */
  function TallyCountries(shops: seq<Shop>): (r: Record<CountryTally>)
    ensures TalliesCountries(r, shops)
  {
    if |shops| == 0 then []
    else
      var init := shops[..|shops| - 1];
      var last := shops[|shops| - 1];
      assert shops == init + [last];
      var acc := TallyCountries(init);
      TallyStep(acc, init, last);
      AddShop(acc, last)
  }

  /** One entry of the `/api/countries` answer. */
  datatype CountryCounts = CountryCounts(cities: nat, shops: nat)

  function CountedShops(c: CountryCounts): nat {
    c.shops
  }

  /** `getCountriesWithShopCounts`: one entry per distinct country, counting its
      distinct cities and its shops; the shop counts add up to the catalog size. */
  function CountriesWithShopCounts(shops: seq<Shop>): (r: Record<CountryCounts>)
    ensures UniqueKeys(r)
    ensures forall c :: c in Keys(r) <==> c in CountriesIn(shops)
    ensures forall i :: 0 <= i < |r| ==>
      r[i].1 == CountryCounts(|CitiesIn(shops, r[i].0)|, |ShopsByCountry(shops, r[i].0)|)
    ensures forall i :: 0 <= i < |r| ==> 1 <= r[i].1.cities <= r[i].1.shops
    ensures Total(r, CountedShops) == |shops|
  {
    var t := TallyCountries(shops);
    var r := CountsOf(t);
    CountsFromTally(shops, t, r);
    r
  }

  /** The "convert Set to count" pass: each city set is replaced by its size. */
  function CountsOf(t: Record<CountryTally>): (r: Record<CountryCounts>)
    ensures |r| == |t|
    ensures forall i :: 0 <= i < |t| ==> r[i] == (t[i].0, CountryCounts(|t[i].1.cities|, t[i].1.shops))
  {
    if |t| == 0 then []
    else
      var last := t[|t| - 1];
      CountsOf(t[..|t| - 1]) + [(last.0, CountryCounts(|last.1.cities|, last.1.shops))]
  }

  lemma CountsFromTally(shops: seq<Shop>, t: Record<CountryTally>, r: Record<CountryCounts>)
    requires TalliesCountries(t, shops)
    requires |r| == |t|
    requires forall i :: 0 <= i < |t| ==> r[i] == (t[i].0, CountryCounts(|t[i].1.cities|, t[i].1.shops))
    ensures UniqueKeys(r)
    ensures forall c :: c in Keys(r) <==> c in CountriesIn(shops)
    ensures forall i :: 0 <= i < |r| ==>
      r[i].1 == CountryCounts(|CitiesIn(shops, r[i].0)|, |ShopsByCountry(shops, r[i].0)|)
    ensures forall i :: 0 <= i < |r| ==> 1 <= r[i].1.cities <= r[i].1.shops
    ensures Total(r, CountedShops) == |shops|
  {
    assert Keys(r) == Keys(t);
    assert TalliedEntries(t, shops);
    forall i | 0 <= i < |r|
      ensures r[i].1 == CountryCounts(|CitiesIn(shops, r[i].0)|, |ShopsByCountry(shops, r[i].0)|)
      ensures 1 <= r[i].1.cities <= r[i].1.shops
    {
      assert t[i].1 == CountryTally(CitiesIn(shops, t[i].0), |ShopsByCountry(shops, t[i].0)|);
      assert t[i].0 in Keys(t);
      CitiesBetweenOneAndShops(shops, t[i].0);
    }
    TotalPointwise(r, CountedShops, t, TallyShops);
  }

  /** The count an entry of `cityShops` contributes to the total: the entry
      itself, named so that `Total` can sum a record of plain counts. */
  function Tallied(n: nat): nat {
    n
  }

  /** `acc` holds, for each city name of `shops`, the number of shops carrying it. */
  ghost predicate CountsCities(acc: Record<nat>, shops: seq<Shop>) {
    && UniqueKeys(acc)
    && (forall x :: x in Keys(acc) <==> exists s :: s in shops && s.cityName == x)
    && (forall i :: 0 <= i < |acc| ==> acc[i].1 == |Filter(shops, CityNameIs(acc[i].0))|)
    && Total(acc, Tallied) == |shops|
  }

  /** One step of the `forEach` of `getCitiesWithShopCounts`: `cityShops[name] = (cityShops[name] || 0) + 1`. */
  function CountCity(acc: Record<nat>, shop: Shop): Record<nat> {
    Put(acc, shop.cityName, Get(acc, shop.cityName).GetOr(0) + 1)
  }

  lemma CityStep(acc: Record<nat>, init: seq<Shop>, last: Shop)
    requires CountsCities(acc, init)
    ensures CountsCities(CountCity(acc, last), init + [last])
  {
    CityTotal(acc, last);
    var r := CountCity(acc, last);
    forall x ensures x in Keys(r) <==> exists s :: s in init + [last] && s.cityName == x {
      CityKey(acc, init, last, x);
    }
    forall i | 0 <= i < |r| ensures r[i].1 == |Filter(init + [last], CityNameIs(r[i].0))| {
      CityEntry(acc, init, last, i);
    }
  }

  /** Counting a shop keeps the keys unique and adds one to the total. */
  lemma CityTotal(acc: Record<nat>, last: Shop)
    requires UniqueKeys(acc)
    ensures UniqueKeys(CountCity(acc, last))
    ensures Total(CountCity(acc, last), Tallied) == Total(acc, Tallied) + 1
  {
    var k := last.cityName;
    TotalPut(acc, k, Get(acc, k).GetOr(0) + 1, Tallied);
  }

  lemma CityKey(acc: Record<nat>, init: seq<Shop>, last: Shop, x: string)
    requires CountsCities(acc, init)
    ensures x in Keys(CountCity(acc, last)) <==> exists s :: s in init + [last] && s.cityName == x
  {
    var shops := init + [last];
    assert last in shops;
    if x in Keys(acc) {
      var s :| s in init && s.cityName == x;
      assert s in shops;
    }
    if exists s :: s in shops && s.cityName == x {
      var s :| s in shops && s.cityName == x;
      assert s in init || s == last;
    }
  }

  lemma CityEntry(acc: Record<nat>, init: seq<Shop>, last: Shop, i: nat)
    requires CountsCities(acc, init)
    requires i < |CountCity(acc, last)|
    ensures var r := CountCity(acc, last);
            r[i].1 == |Filter(init + [last], CityNameIs(r[i].0))|
  {
    var k := last.cityName;
    var r := CountCity(acc, last);
    if k in Keys(acc) && i == IndexOf(acc, k) {
      ExtendCity(init, last, k);
    } else if k !in Keys(acc) && i == |acc| {
      ExtendCity(init, last, k);
      NoShopsNamed(init, k);
    } else {
      assert r[i] == acc[i];
      ExtendCity(init, last, acc[i].0);
    }
  }

  lemma {:induction false} NoShopsNamed(shops: seq<Shop>, city: string)
    requires forall s :: s in shops ==> s.cityName != city
    ensures Filter(shops, CityNameIs(city)) == []
  {
    if |shops| > 0 {
      assert shops[|shops| - 1] in shops;
      assert forall s :: s in shops[..|shops| - 1] ==> s in shops;
      NoShopsNamed(shops[..|shops| - 1], city);
    }
  }

  /** The `forEach` of `getCitiesWithShopCounts` over the already-filtered shops. */
  function CountByCity(shops: seq<Shop>): (r: Record<nat>)
    ensures CountsCities(r, shops)
  {
    if |shops| == 0 then []
    else
      var init := shops[..|shops| - 1];
      var last := shops[|shops| - 1];
      assert shops == init + [last];
      var acc := CountByCity(init);
      CityStep(acc, init, last);
      CountCity(acc, last)
  }

  /** `getCitiesWithShopCounts`: for one country, the number of shops per city;
      the keys are the country's distinct cities, each count is the size of the
      matching city filter, the counts add up to the country's shops, and an
      unknown country gives an empty object. */
  function CitiesWithShopCounts(shops: seq<Shop>, country: string): (r: Record<nat>)
    ensures UniqueKeys(r)
    ensures forall x :: x in Keys(r) <==> x in CitiesIn(shops, country)
    ensures forall i :: 0 <= i < |r| ==> r[i].1 == |ShopsByCity(shops, country, r[i].0)|
    ensures Total(r, Tallied) == |ShopsByCountry(shops, country)|
    ensures country !in CountriesIn(shops) ==> r == []
  {
    var r := CountByCity(ShopsByCountry(shops, country));
    CityCountsMeaning(shops, country, r);
    r
  }

  lemma CityCountsMeaning(shops: seq<Shop>, country: string, r: Record<nat>)
    requires CountsCities(r, ShopsByCountry(shops, country))
    ensures forall x :: x in Keys(r) <==> x in CitiesIn(shops, country)
    ensures forall i :: 0 <= i < |r| ==> r[i].1 == |ShopsByCity(shops, country, r[i].0)|
    ensures country !in CountriesIn(shops) ==> r == []
  {
    forall i | 0 <= i < |r| ensures r[i].1 == |ShopsByCity(shops, country, r[i].0)| {
      ShopsByCityWithinCountry(shops, country, r[i].0);
    }
    if country !in CountriesIn(shops) {
      Absent(shops, country);
      if |r| > 0 {
        assert r[0].0 in Keys(r);
      }
    }
  }
}

=== FILE: shops_route.dfy ===
/** `GET /api/shops` (app/api/shops/route.ts): a free-text search, a city of a
    country, or a whole country, chosen by which query parameters are
    non-empty. Each branch loads the catalog through the shared cache. */
module ShopsRoute {
  import opened Wrappers
  import opened ShopsData

  const MissingParameters := "Missing required parameters: query, country, or city"
  const FetchFailed := "Failed to fetch shops"

  datatype ShopsBody = ShopsFound(results: seq<Shop>, count: nat) | ShopsError(error: string)

  /** The response and the catalog cache the request leaves behind. */
  datatype Served = Served(response: Http<ShopsBody>, cache: ShopCache)

  /** A query parameter the route acts on: present (`get` is not `null`) and non-empty. */
  predicate Given(p: Option<string>) {
    p.Some? && |p.value| > 0
  }

  /** Which filter the parameters select. */
  datatype Selection = ByQuery(query: string) | ByCity(country: string, city: string) | ByCountry(country: string) | NoSelection

  function Select(query: Option<string>, country: Option<string>, city: Option<string>): (s: Selection)
    ensures s.ByQuery? <==> Given(query)
    ensures s.ByQuery? ==> s.query == query.value
    ensures s.ByCity? <==> !Given(query) && Given(country) && Given(city)
    ensures s.ByCity? ==> s.country == country.value && s.city == city.value
    ensures s.ByCountry? <==> !Given(query) && Given(country) && !Given(city)
    ensures s.ByCountry? ==> s.country == country.value
  {
    if Given(query) then ByQuery(query.value)
    else if Given(country) && Given(city) then ByCity(country.value, city.value)
    else if Given(country) then ByCountry(country.value)
    else NoSelection
  }

  /** The rows a selection keeps. */
  function Apply(sel: Selection, shops: seq<Shop>): seq<Shop> {
    match sel
    case ByQuery(q) => SearchShops(shops, q)
    case ByCity(c, x) => ShopsByCity(shops, c, x)
    case ByCountry(c) => ShopsByCountry(shops, c)
    case NoSelection => []
  }

  /** The route, given the cache and what reading the catalog file would give now. */
  function ShopsGet(query: Option<string>, country: Option<string>, city: Option<string>,
                    cache: ShopCache, file: Result<seq<Shop>, string>): (r: Served)
    ensures r.response.status == 400 <==> !Given(query) && !Given(country)
    ensures r.response.status == 400 ==> r.response.body == ShopsError(MissingParameters) && r.cache == cache
    ensures r.response.status == 500 <==> (Given(query) || Given(country)) && cache.Unloaded? && file.Failure?
    ensures r.response.status == 500 ==> r.response.body == ShopsError(FetchFailed) && r.cache == Unloaded
    ensures r.response.status in {200, 400, 500}
    ensures r.response.status == 200 ==> r.response.body.ShopsFound?
    ensures r.response.body.ShopsFound? ==>
      var shops := LoadShops(cache, file).shops.value;
      var found := r.response.body.results;
      && r.response.status == 200
      && r.response.body.count == |found|
      && r.cache == Cached(shops)
      && (Given(query) ==> found == SearchShops(shops, query.value))
      && (!Given(query) && Given(country) && Given(city) ==> found == ShopsByCity(shops, country.value, city.value))
      && (!Given(query) && Given(country) && !Given(city) ==> found == ShopsByCountry(shops, country.value))
  {
    var sel := Select(query, country, city);
    if sel.NoSelection? then Served(Http(400, ShopsError(MissingParameters)), cache)
    else
      var l := LoadShops(cache, file);
      match l.shops
      case Failure(_) => Served(Http(500, ShopsError(FetchFailed)), l.cache)
      case Success(shops) =>
        var found := Apply(sel, shops);
        Served(Http(200, ShopsFound(found, |found|)), l.cache)
  }

  /** An empty `query` is no query: the country and city decide. */
  lemma EmptyQueryIgnored(country: Option<string>, city: Option<string>, cache: ShopCache, file: Result<seq<Shop>, string>)
    ensures ShopsGet(Some(""), country, city, cache, file) == ShopsGet(None, country, city, cache, file)
  {
  }

  /** A non-empty query overrides the country and city parameters. */
  lemma QueryWins(q: string, country: Option<string>, city: Option<string>, cache: ShopCache, file: Result<seq<Shop>, string>)
    requires |q| > 0
    ensures ShopsGet(Some(q), country, city, cache, file) == ShopsGet(Some(q), None, None, cache, file)
  {
  }

  /** A city without a country is not enough. */
  lemma CityAloneRejected(city: Option<string>, cache: ShopCache, file: Result<seq<Shop>, string>)
    ensures ShopsGet(None, None, city, cache, file).response == Http(400, ShopsError(MissingParameters))
  {
  }

  /** Once the catalog is cached the file is not consulted again. */
  lemma CachedCatalogServes(query: Option<string>, country: Option<string>, city: Option<string>,
                            shops: seq<Shop>, f1: Result<seq<Shop>, string>, f2: Result<seq<Shop>, string>)
    ensures ShopsGet(query, country, city, Cached(shops), f1) == ShopsGet(query, country, city, Cached(shops), f2)
    ensures ShopsGet(query, country, city, Cached(shops), f1).response.status != 500
  {
  }

  /** The city branch returns exactly the rows of the country branch that are in that city. */
  lemma CityBranchRefinesCountry(country: string, city: string, shops: seq<Shop>)
    requires |country| > 0 && |city| > 0
    ensures var byCity := ShopsGet(None, Some(country), Some(city), Cached(shops), Success(shops)).response.body.results;
            var byCountry := ShopsGet(None, Some(country), None, Cached(shops), Success(shops)).response.body.results;
            forall s :: s in byCity <==> s in byCountry && s.cityName == city
  {
  }
}

=== FILE: strings.dfy ===
/** The string operations the loaders and the search use: ASCII lower-casing,
    substring search (`includes`), whitespace trimming (`trim` / `strip`),
    splitting on one character (`split`), and the code-unit order that
    `Array.prototype.sort` and Python's `sorted` use on strings. */
module Strings {

  // ---------------------------------------------------------------------------
  // Whitespace and trimming
  // ---------------------------------------------------------------------------

  /** Characters `String.prototype.trim` removes that the model knows about:
      ASCII white space, no-break space, byte-order mark and the two line separators. */
  predicate IsSpace(c: char) {
    c == ' ' || c == '\t' || c == '\n' || c == '\r' || c == '\U{B}' || c == '\U{C}'
    || c == '\U{A0}' || c == '\U{FEFF}' || c == '\U{2028}' || c == '\U{2029}'
  }

  predicate AllSpace(s: string) {
    forall i :: 0 <= i < |s| ==> IsSpace(s[i])
  }

  /** Neither end of `s` is white space. */
  predicate IsTrimmed(s: string) {
    |s| == 0 || (!IsSpace(s[0]) && !IsSpace(s[|s| - 1]))
  }

  /** The first position at or after `k` that does not hold white space (or `|s|`). */
  function SkipSpace(s: string, k: nat): (i: nat)
    requires k <= |s|
    ensures k <= i <= |s|
    ensures forall m :: k <= m < i ==> IsSpace(s[m])
    ensures i < |s| ==> !IsSpace(s[i])
    decreases |s| - k
  {
    if k < |s| && IsSpace(s[k]) then SkipSpace(s, k + 1) else k
  }

  /** The end of `s[lo..k]` once its trailing white space is dropped. */
  function SkipSpaceBack(s: string, lo: nat, k: nat): (j: nat)
    requires lo <= k <= |s|
    ensures lo <= j <= k
    ensures forall m :: j <= m < k ==> IsSpace(s[m])
    ensures lo < j ==> !IsSpace(s[j - 1])
    decreases k
  {
    if lo < k && IsSpace(s[k - 1]) then SkipSpaceBack(s, lo, k - 1) else k
  }

  /** `s.trim()` in JavaScript, `s.strip()` in Python. */
  function Trim(s: string): (r: string)
    ensures IsTrimmed(r)
    ensures forall c :: c in r ==> c in s
    ensures |r| == 0 <==> AllSpace(s)
    ensures IsTrimmed(s) ==> r == s
  {
    var i := SkipSpace(s, 0);
    var j := SkipSpaceBack(s, i, |s|);
    assert i < j ==> s[i..j][0] == s[i] && s[i..j][j - i - 1] == s[j - 1];
    assert |s| > 0 && IsTrimmed(s) ==> i == 0 && j == |s|;
    s[i..j]
  }

  // ---------------------------------------------------------------------------
  // Case and substrings
  // ---------------------------------------------------------------------------

  /** Lower-cases the ASCII letters and leaves every other character alone. */
  function LowerChar(c: char): (d: char)
    ensures 'A' <= c <= 'Z' ==> 'a' <= d <= 'z' && d as int - 'a' as int == c as int - 'A' as int
    ensures !('A' <= c <= 'Z') ==> d == c
    ensures !('A' <= d <= 'Z')
  {
    if 'A' <= c <= 'Z' then (c as int + 32) as char else c
  }

  /** `s.toLowerCase()`, restricted to ASCII letters: position by position,
      each capital becomes its small letter and nothing else changes. */
  function Lower(s: string): (r: string)
    ensures |r| == |s|
    ensures forall i :: 0 <= i < |s| ==> r[i] == LowerChar(s[i])
    ensures forall i :: 0 <= i < |r| ==> !('A' <= r[i] <= 'Z')
  {
    seq(|s|, i requires 0 <= i < |s| => LowerChar(s[i]))
  }

  lemma LowerIdempotent(s: string)
    ensures Lower(Lower(s)) == Lower(s)
  {
  }

  /** `t` occurs in `s` starting at position `i`. */
  ghost predicate OccursAt(t: string, s: string, i: int) {
    0 <= i <= |s| - |t| && s[i..i + |t|] == t
  }

  /** `t` occurs in `s` as a contiguous block. */
  ghost predicate IsInfix(t: string, s: string) {
    exists i :: OccursAt(t, s, i)
  }

  lemma InfixStep(s: string, t: string)
    requires |s| > 0
    ensures IsInfix(t, s) <==> (|t| <= |s| && s[..|t|] == t) || IsInfix(t, s[1..])
  {
    if IsInfix(t, s) && !(|t| <= |s| && s[..|t|] == t) {
      var i :| OccursAt(t, s, i);
      assert i != 0;
      assert s[1..][i - 1..i - 1 + |t|] == t;
      assert OccursAt(t, s[1..], i - 1);
    }
    if IsInfix(t, s[1..]) {
      var i :| OccursAt(t, s[1..], i);
      assert s[i + 1..i + 1 + |t|] == t;
      assert OccursAt(t, s, i + 1);
    }
    if |t| <= |s| && s[..|t|] == t {
      assert OccursAt(t, s, 0);
    }
  }

  /** `s.includes(t)`: scans the start positions of `s` from left to right. */
  function Contains(s: string, t: string): (r: bool)
    ensures r <==> IsInfix(t, s)
  {
    if |t| <= |s| && s[..|t|] == t then
      assert OccursAt(t, s, 0);
      true
    else if |s| == 0 then
      false
    else
      InfixStep(s, t);
      Contains(s[1..], t)
  }

  // ---------------------------------------------------------------------------
  // Splitting on one character
  // ---------------------------------------------------------------------------

  /** The pieces written back with `sep` between consecutive ones. */
  function Join(parts: seq<string>, sep: char): string {
    if |parts| == 0 then []
    else if |parts| == 1 then parts[0]
    else parts[0] + [sep] + Join(parts[1..], sep)
  }

  lemma JoinCons(c: char, p: string, rest: seq<string>, sep: char)
    ensures Join([[c] + p] + rest, sep) == [c] + Join([p] + rest, sep)
  {
    var a := [[c] + p] + rest;
    var b := [p] + rest;
    assert a[1..] == rest == b[1..];
  }

  /** `s.split(sep)`: the maximal pieces between occurrences of `sep`; there is
      always at least one piece, and adjacent separators give an empty piece. */
  function Split(s: string, sep: char): (r: seq<string>)
    ensures |r| >= 1
    ensures forall i :: 0 <= i < |r| ==> sep !in r[i]
    ensures Join(r, sep) == s
  {
    if |s| == 0 then [[]]
    else
      var rest := Split(s[1..], sep);
      if s[0] == sep then
        assert ([[]] + rest)[1..] == rest;
        assert s == [sep] + s[1..];
        [[]] + rest
      else
        JoinCons(s[0], rest[0], rest[1..], sep);
        assert [rest[0]] + rest[1..] == rest;
        assert s == [s[0]] + s[1..];
        [[s[0]] + rest[0]] + rest[1..]
  }

  /** Splitting a joined text gives back the pieces, as long as none contains the separator. */
  lemma {:induction false} SplitJoin(parts: seq<string>, sep: char)
    requires |parts| >= 1
    requires forall i :: 0 <= i < |parts| ==> sep !in parts[i]
    ensures Split(Join(parts, sep), sep) == parts
    decreases |parts|, |parts[0]|
  {
    var s := Join(parts, sep);
    if |parts[0]| == 0 {
      if |parts| == 1 {
        assert parts == [[]];
      } else {
        assert s == [sep] + Join(parts[1..], sep);
        assert s[1..] == Join(parts[1..], sep);
        SplitJoin(parts[1..], sep);
        assert parts == [[]] + parts[1..];
      }
    } else {
      var c := parts[0][0];
      var p := parts[0][1..];
      assert parts[0] == [c] + p;
      assert c != sep by { assert c in parts[0]; }
      var parts' := [p] + parts[1..];
      assert parts == [[c] + p] + parts[1..];
      JoinCons(c, p, parts[1..], sep);
      assert s == [c] + Join(parts', sep);
      assert s[1..] == Join(parts', sep);
      forall i | 0 <= i < |parts'|
        ensures sep !in parts'[i]
      {
        if i == 0 {
          assert forall x :: x in p ==> x in parts[0];
        } else {
          assert parts'[i] == parts[i];
        }
      }
      SplitJoin(parts', sep);
      var rest := Split(s[1..], sep);
      assert rest == parts';
      assert Split(s, sep) == [[c] + rest[0]] + rest[1..];
      assert rest[1..] == parts[1..];
    }
  }

  /** A text without the separator is a single piece. */
  lemma SplitNone(h: string, sep: char)
    requires sep !in h
    ensures Split(h, sep) == [h]
  {
    SplitJoin([h], sep);
  }

  /** A first piece without the separator, then the separator, then the rest. */
  lemma SplitCons(h: string, sep: char, rest: string)
    requires sep !in h
    ensures Split(h + [sep] + rest, sep) == [h] + Split(rest, sep)
  {
    var p := Split(rest, sep);
    assert ([h] + p)[1..] == p;
    assert Join([h] + p, sep) == h + [sep] + rest;
    SplitJoin([h] + p, sep);
  }

  // ---------------------------------------------------------------------------
  // Decimal numerals
  // ---------------------------------------------------------------------------

  predicate IsDigit(c: char) {
    '0' <= c <= '9'
  }

  predicate AllDigits(s: string) {
    forall i :: 0 <= i < |s| ==> IsDigit(s[i])
  }

  function DigitChar(d: nat): (c: char)
    requires d < 10
    ensures IsDigit(c)
  {
    ('0' as int + d) as char
  }

  /** `String(n)` for a natural number: its decimal numeral without leading zeros. */
  function NatString(n: nat): (s: string)
    ensures |s| >= 1 && AllDigits(s)
    ensures n >= 10 ==> s[0] != '0'
    decreases n
  {
    if n < 10 then [DigitChar(n)]
    else
      var h := NatString(n / 10);
      assert (h + [DigitChar(n % 10)])[0] == h[0];
      h + [DigitChar(n % 10)]
  }

  /** The number a string of decimal digits denotes. */
  function DigitsValue(s: string): nat
    requires AllDigits(s)
  {
    if |s| == 0 then 0
    else DigitsValue(s[..|s| - 1]) * 10 + (s[|s| - 1] as int - '0' as int)
  }

  /** Reading a numeral back gives the number it was written from. */
  lemma {:induction false} NatStringValue(n: nat)
    ensures DigitsValue(NatString(n)) == n
    decreases n
  {
    if n >= 10 {
      NatStringValue(n / 10);
      var s := NatString(n);
      assert s[..|s| - 1] == NatString(n / 10);
    }
  }

  // ---------------------------------------------------------------------------
  // Ordering and sorting
  // ---------------------------------------------------------------------------

  /** `a` comes no later than `b` when strings are compared character by
      character, a proper prefix first: the default order of
      `Array.prototype.sort` on strings and of Python's `sorted`. */
  predicate Below(a: string, b: string) {
    if |a| == 0 then true
    else if |b| == 0 then false
    else if a[0] != b[0] then a[0] < b[0]
    else Below(a[1..], b[1..])
  }

  lemma BelowTotal(a: string, b: string)
    ensures Below(a, b) || Below(b, a)
  {
  }

  lemma BelowAntisymmetric(a: string, b: string)
    requires Below(a, b) && Below(b, a)
    ensures a == b
  {
    if |a| > 0 && |b| > 0 {
      BelowAntisymmetric(a[1..], b[1..]);
      assert a == [a[0]] + a[1..];
      assert b == [b[0]] + b[1..];
    }
  }

  lemma BelowTransitive(a: string, b: string, c: string)
    requires Below(a, b) && Below(b, c)
    ensures Below(a, c)
  {
    if |a| > 0 && |b| > 0 && |c| > 0 && a[0] == b[0] == c[0] {
      BelowTransitive(a[1..], b[1..], c[1..]);
    }
  }

  predicate Sorted(s: seq<string>) {
    forall i, j :: 0 <= i < j < |s| ==> Below(s[i], s[j])
  }

  function Insert(x: string, s: seq<string>): (r: seq<string>)
    requires Sorted(s)
    ensures Sorted(r)
    ensures multiset(r) == multiset(s) + multiset{x}
  {
    if |s| == 0 then [x]
    else if Below(x, s[0]) then
      assert forall j :: 0 < j < |s| ==> Below(x, s[j]) by {
        forall j | 0 < j < |s| ensures Below(x, s[j]) {
          BelowTransitive(x, s[0], s[j]);
        }
      }
      [x] + s
    else
      BelowTotal(x, s[0]);
      var t := Insert(x, s[1..]);
      assert s == [s[0]] + s[1..];
      assert forall j :: 0 <= j < |t| ==> Below(s[0], t[j]) by {
        forall j | 0 <= j < |t| ensures Below(s[0], t[j]) {
          assert t[j] in multiset(t);
          if t[j] != x {
            assert t[j] in multiset(s[1..]);
            var k :| 0 <= k < |s[1..]| && s[1..][k] == t[j];
            assert s[k + 1] == t[j];
          }
        }
      }
      [s[0]] + t
  }

  /** Insertion sort: the reference for JavaScript's `sort()` and Python's `sorted`
      on strings; a sorted permutation under a total order is unique, so the
      algorithm the runtime uses does not matter. */
  function Sort(s: seq<string>): (r: seq<string>)
    ensures Sorted(r)
    ensures multiset(r) == multiset(s)
  {
    if |s| == 0 then []
    else
      assert s == [s[0]] + s[1..];
      Insert(s[0], Sort(s[1..]))
  }
}

=== FILE: wrappers.dfy ===
/** Failure-carrying and optional values shared by every module of the model. */
module Wrappers {

  /** A value that may be absent (JavaScript `undefined`/`null`, Python `None`). */
  datatype Option<+T> = None | Some(value: T) {
    function GetOr(default: T): T {
      match this
      case Some(v) => v
      case None => default
    }
  }

  /** The outcome of a step that may raise: `Failure` carries the exception's message. */
  datatype Result<+R, +E> = Success(value: R) | Failure(error: E)

  /** A member of a decoded JSON object: the key may be absent, present with
      `null`, or present with a value. JavaScript's `||` and Python's `.get(k, d)`
      treat the first two differently, so the model keeps them apart. */
  datatype Field<+T> = Missing | Null | Present(value: T)

  /** An HTTP response: status code and JSON body. */
  datatype Http<+B> = Http(status: nat, body: B)
}
